=== FILE: README.md ===
# PyPortal board support, modelled in Dafny

This project models the logic core of `adafruit_pyportal.py`, the CircuitPython
helper for the Adafruit PyPortal. The PyPortal is a network-connected display
that fetches a URL, pulls values out of the reply, and shows them as text
labels over a background image. The model covers:

- the `fetch` pipeline: choosing local or network data, parsing JSON,
  extracting values with JSON paths or regular expressions, looking up and
  downloading an image, the success callback, formatting and drawing every
  text slot, and the return value;
- `_json_traverse` over a JSON document;
- `set_text`, together with the splash group's bounded capacity and the
  rearrangement it causes;
- `set_background`, with its one-slot background group and file handles;
- the constructor's normalisation of the `json_path`, `text_position`,
  `text_color`, `text_wrap` and `text_maxlen` arguments, and its ESP32 probe
  loop;
- `wrap_nicely`;
- `get_local_time`'s URL construction and its parsing of the time-service
  reply;
- `wget`'s content-length and chunk accounting;
- `show_QR`'s layout arithmetic and scan-line rasterisation.

The model is functional: every operation maps an explicit state to a new
state or to a Python exception (`Base.PyError`). The outside world is a
parameter:

- the HTTP client is `Fetch.Env` (bodies, JSON parser, regex search, image
  headers, `str()` of containers);
- the file system is a log of open and close events;
- the QR matrix is a row of booleans.

The module layout follows the source:

- `Base`: results and Python indexing;
- `Strs`: split and join;
- `Numerals`: `int()` and `"{:,d}"`;
- `WordWrap`, `JsonPath`, `Scene`, `LocalTime`, `Download`, `QrRaster`;
- `Fetch`: the pipeline.

Where the code and its documented behaviour differ, the model follows the
code:

- Without a JSON path or regular expression, `values` is the raw reply text.
  `values[i]` is then its `i`-th character, not a list element.
- When `set_text` replaces an existing label, the elements above it in the
  splash group come back in reverse order, because the pop loop reinserts
  them that way.
- While looking up the image URL, only `KeyError` is caught. An integer
  `KeyError` key makes the handler's string concatenation raise
  `TypeError`. Any other error propagates.
- In `wget`, a missing `content-length` header raises `KeyError`, which
  `fetch` does not catch. A non-integer header raises `ValueError`, which
  falls back to the default background.
- An image URL that is truthy but not a string raises `TypeError` when it is
  appended to the converter URL.
- A value that is neither a string nor formattable as an integer, drawn
  into a slot with wrapping, raises `AttributeError` (there is no `split`).
- With several text positions, a single integer `text_color` (the default
  `0x808080`) raises `TypeError` when it is indexed.

## Model

| member | source | states |
|---|---|---|
| Base.SliceTo | adafruit_pyportal.py:375-376 | Python's `s[:m]`: a prefix of `s` of length `m` when it fits, all of `s` past the end, and `|s|+m` characters (at least none) for negative `m` |
| Base.PyIndex | adafruit_pyportal.py:433 | Python's subscript on a sequence of length `n` succeeds exactly for `-n <= i < n`, and then names position `i` or `i+n` |
| Strs.JoinSplit | adafruit_pyportal.py:703 | joining the pieces of `str.split(c)` with `c` gives back the original string |
| Strs.SplitJoin | adafruit_pyportal.py:703 | splitting the join of separator-free pieces with the same separator gives back exactly those pieces |
| Strs.SplitAppend | adafruit_pyportal.py:456-459 | splitting `a + c + b` at `c` gives the pieces of `a` followed by the pieces of `b` |
| Numerals.ParseIntDigits | adafruit_pyportal.py:606 | `int()` of a non-empty digit string is its decimal value |
| Numerals.ParseIntDecimal | adafruit_pyportal.py:606 | `int()` inverts the decimal rendering of every integer, negatives included |
| Numerals.ParseIntRejects | adafruit_pyportal.py:606-608 | `int()` rejects any string containing no digit, so `fetch` falls back to drawing the string itself |
| Numerals.GroupThousandsSound | adafruit_pyportal.py:606 | the `,` grouping of a digit string loses no digits, and its groups are a 1-3 digit head followed by 3-digit groups |
| Numerals.FormatThousands | adafruit_pyportal.py:606 | `"{:,d}"` renders `n` so that removing the commas gives its decimal string, starts with `-` exactly for negative `n`, and is grouped by thousands |
| Numerals.FormatThousandsRoundTrip | adafruit_pyportal.py:606 | reading a `"{:,d}"` rendering back with the commas removed gives the same integer |
| WordWrap.WrapNicely | adafruit_pyportal.py:696-714 | the first line is empty exactly when the first word plus its leading space exceeds the width; otherwise it starts with a space |
| WordWrap.WrapNicelyJoin | adafruit_pyportal.py:703-714 | joining the lines with spaces rebuilds the input behind one leading space; only a trailing space can be dropped |
| WordWrap.WrapNicelyKeepsWords | adafruit_pyportal.py:703-714 | re-splitting the joined lines at spaces gives exactly the input's words, in order, behind one empty word |
| WordWrap.WrapNicelyLineBound | adafruit_pyportal.py:706-711 | every line fits the width, unless it is a single word too long to fit any line |
| WordWrap.WrapNicelyGreedy | adafruit_pyportal.py:706-711 | a line is closed only when the next word would not fit on it |
| JsonPath.Lookup | adafruit_pyportal.py:433 | one subscript on a JSON value: `m[k]` is the key's value and raises `KeyError` for an absent key or any integer; `a[i]` and `s[i]` succeed exactly for `-len <= i < len`, giving the `i`-th (or `len + i`-th) element or one-character string, and raise `IndexError` otherwise; every other combination raises `TypeError` |
| JsonPath.TraverseAppend | adafruit_pyportal.py:430-435 | traversing a path `p + q` is traversing `p` and then `q` from where it ended; the empty path returns the document |
| JsonPath.TraverseFailure | adafruit_pyportal.py:430-435 | a traversal fails exactly when some step fails after the earlier steps succeed, and it raises that step's error |
| JsonPath.TraverseBuild | adafruit_pyportal.py:430-435 | every path reaches the leaf of a document built along that path |
| Fetch.OnePathReturnsScalar | adafruit_pyportal.py:145-151 | a flat `json_path` means the same as a one-element list of paths; `fetch` then returns the single value found, not a list, and a failing lookup raises its exception before anything else happens |
| JsonPath.TraverseAll | adafruit_pyportal.py:560-562 | the value list holds one traversal result per path, in order; the first failing path's error is the one raised |
| Scene.Truncate | adafruit_pyportal.py:375-376 | a positive `maxlen` truncates the text to that many characters, and zero leaves it whole |
| Scene.SetText | adafruit_pyportal.py:366-402 | without a font nothing changes; a bad index raises `IndexError`; replacing a label of a slot without a position raises `TypeError`; a new label needs room in the splash group, and a replacement raises `RuntimeError` when putting back the popped elements and the new label would overfill it (only possible when the old label is missing from the group); otherwise the slot shows a fresh label in the group holding `val[:maxlen]` (all of `val` for a zero maxlen) in the slot's colour at the slot's position; other slots and the configuration are unchanged |
| Scene.PopUntilSplits | adafruit_pyportal.py:381-386 | popping the splash group down to the old label leaves the elements below it and collects those above it in reverse order |
| Scene.SetTextReplace | adafruit_pyportal.py:377-394 | replacing a label present in the splash group succeeds exactly when the group is within its capacity, and then keeps the splash group's size, keeps the elements below the label, puts the new label, with a fresh identity, in the old one's place and in the slot, and reverses the elements above it |
| Scene.SetTextCreate | adafruit_pyportal.py:396-402 | a first label for a slot is appended on top of the splash group, and this succeeds exactly while the group is below its capacity of 5 |
| Scene.SetTextOrderKeptIff | adafruit_pyportal.py:381-393 | replacing a label leaves the rest of the splash order unchanged exactly when the elements above it read the same reversed |
| Scene.SetTextKeepsInv | adafruit_pyportal.py:366-402 | `set_text` keeps the splash group within capacity and free of duplicates, and keeps every slot's label in it and distinct from the other slots' labels |
| Scene.SetBackground | adafruit_pyportal.py:282-310 | the old background is removed; a falsy name leaves the group emptier and the file untouched; a truthy one closes the previous file, opens the new one and puts it on top |
| Scene.SetBackgroundKeepsInv | adafruit_pyportal.py:289-308 | `set_background` never overflows the one-element background group and leaves at most the current file open |
| Scene.SetBackgroundTwice | adafruit_pyportal.py:294-298 | two backgrounds in a row leave only the second shown, and close each earlier file before opening the next |
| Scene.BuildSlots | adafruit_pyportal.py:244-250 | slot `i` takes the `i`-th position with the `i`-th colour, wrap and maxlen, and a failing subscript fails the whole configuration |
| Scene.NormalizeTextSlots | adafruit_pyportal.py:219-251 | a single position gives one slot from the scalar settings, an empty list of wraps or maximum lengths counting as 0, and is accepted exactly when the settings are of that form; a list of positions gives one slot per position, slot `k` taking `text_color[k]`, and `text_wrap[k]` and `text_maxlen[k]` unless these are falsy, which means 0 for every slot; a scalar colour with a list raises |
| Scene.ListSlots | adafruit_pyportal.py:220-225 | the list-of-positions case: slot `k` has position `k` and the `k`-th colour, wrap and maxlen, a falsy wrap or maxlen standing for zeros, and an integer colour raises |
| Scene.InitialTextStateInv | adafruit_pyportal.py:232-251 | a freshly configured text state, with no label for any slot, satisfies the invariant `set_text` preserves |
| LocalTime.TimeServiceUrlInjective | adafruit_pyportal.py:445-448 | two locations are asked for at the same URL exactly when they are the same location (a falsy location counting as none), so a location is never confused with the by-IP endpoint |
| LocalTime.ParseInts | adafruit_pyportal.py:457-459 | the pieces convert exactly when each is an integer, and each converted value is its piece's value |
| LocalTime.ParseDatetime | adafruit_pyportal.py:456-459 | a `datetime` string parses exactly when it is well shaped, and then the six fields are the integers of the date and time pieces |
| LocalTime.ParseDatetimeRoundTrip | adafruit_pyportal.py:456-459 | a stamp `Y-M-DTh:m:s.rest` built from digit strings parses back to those six numbers |
| LocalTime.ParseTimeReply | adafruit_pyportal.py:450-461 | a reply object with the four fields and a well-formed `datetime` string gives the time struct of its six numbers plus weekday, year day and DST flag; a malformed string raises `ValueError`, a non-string one `AttributeError`; a missing field raises `KeyError` for the first one missing in the order read, and a non-object `TypeError` |
| Download.ContentLength | adafruit_pyportal.py:485 | the content length is the header's integer; a missing header raises `KeyError` and a non-integer one `ValueError` |
| Download.ChunkSize | adafruit_pyportal.py:490 | the requested chunk size is the content length capped at 12000 |
| Download.Wget | adafruit_pyportal.py:485-501 | the file is the concatenation of the chunks read; `remaining` is the content length minus the bytes written; reading stops after the first chunk that brings `remaining` to zero, or at the end of the stream |
| Download.WgetExactStream | adafruit_pyportal.py:489-501 | a stream of non-empty chunks totalling the content length is read to the end, and the file is the whole body |
| Download.FindEsp | adafruit_pyportal.py:184-193 | the probe succeeds exactly when one of three attempts does, stops at the first, resets the chip after each failure, and raises `RuntimeError` after three failures |
| QrRaster.QrLayout | adafruit_pyportal.py:642-654 | a size that is not a multiple of 32 raises `RuntimeError`; otherwise the block is the largest that fits the matrix plus a 2-block border, the code is centred on both axes, and a scan line holds the size over 8 bytes |
| QrRaster.SetPixelSpec | adafruit_pyportal.py:673 | setting a pixel's bit turns that pixel on and no other |
| QrRaster.ColumnInRange | adafruit_pyportal.py:669-673 | every pixel drawn for a matrix column lies inside the bitmap and inside the scan line |
| QrRaster.RasterLine | adafruit_pyportal.py:665-673 | a scan line has one bit per pixel, and a pixel is set exactly when it lies in the block of a dark module of the row |
| QrRaster.RowsInRange | adafruit_pyportal.py:675-677 | every bitmap row written lies inside the bitmap, and different module rows and block offsets write different rows |
| Fetch.Item | adafruit_pyportal.py:606-608 | `values[i]` is the `i`-th extracted value, or the `i`-th character of the raw text, and raises `IndexError` past the end |
| Fetch.SearchAll | adafruit_pyportal.py:563-565 | the regex values are the first groups of each expression's match, in order; a miss raises `AttributeError` |
| Fetch.ExtractValues | adafruit_pyportal.py:560-567 | JSON paths take precedence over regular expressions, and with neither the values are the raw reply text |
| Fetch.FindImage | adafruit_pyportal.py:569-574 | the image URL is the traversal's result; a missing string key shows the default background instead; an integer key raises `TypeError`; other errors propagate |
| Fetch.ShowImage | adafruit_pyportal.py:581-595 | a falsy URL does nothing; a non-string one raises `TypeError`; a string one is downloaded through the converter service; the cache file becomes the background when the content length is an integer, a non-integer one shows the default background, and a missing one propagates `KeyError` |
| Fetch.FormatValue | adafruit_pyportal.py:606-608 | numbers, booleans and integer strings are drawn with thousands separators; other strings are drawn as they are; other values are not text |
| Fetch.SlotTextLines | adafruit_pyportal.py:611-614 | a wrapping slot's lines, split at the newlines, are `wrap_nicely`'s lines, and joined with spaces again give back the formatted value behind one leading space: wrapping loses no words |
| Fetch.RenderSlot | adafruit_pyportal.py:603-615 | drawing slot `i` needs a value at `i` and raises `IndexError` without one; afterwards slot `i`, if it shows anything, shows `values[i]` formatted, wrapped and truncated, in its colour at its position, and no other slot changes |
| Fetch.RenderTexts | adafruit_pyportal.py:602-615 | drawing the slots succeeds only when there are at least as many values as slots; afterwards every visited slot that shows anything shows its own value, and the slots not visited are unchanged |
| Fetch.RenderTextsKeepsInv | adafruit_pyportal.py:602-615 | drawing all slots keeps the splash-group invariant of `set_text` |
| Fetch.ReturnValue | adafruit_pyportal.py:616-618 | a single value is returned by itself, and any other number of values as the whole collection |
| Fetch.Finish | adafruit_pyportal.py:597-618 | the callback sees the values before any text is drawn; without a text font no slot is touched; with one, the call completes exactly when every slot can be drawn, and then each slot shows its value; the background is untouched and the return value follows the value count |
| Fetch.Fetch | adafruit_pyportal.py:516-618 | an unparsable reply raises `ValueError`; running out of memory restarts the board and nothing else does; the local file replaces the network request; an image is downloaded only when an image path is set; a call that returns, returns the extracted values, after the callback saw them last, and with a text font every slot shows its value; without an image path the rest of the call is `Finish` on the extracted values |
| Fetch.ImageThenFinish | adafruit_pyportal.py:569-618 | after the extraction, the image step and `Finish` add only downloads and the callback to the effects; a completed call returns the values it was given and, with a text font, every slot shows its value; a failing image lookup or a non-string URL ends the call with that exception |
| Fetch.ExtractThenFinish | adafruit_pyportal.py:556-618 | a failing path or expression raises before the image or any slot; a completed call returns the extracted values, the callback saw them last, and every slot shows its value |
| Fetch.ExtractionFails | adafruit_pyportal.py:560-562 | a value path that fails ends `fetch` with its exception, before the image or any text slot is touched |
| Fetch.FetchWithoutJson | adafruit_pyportal.py:545-554 | the JSON parser is not consulted when neither a JSON path nor an image path is set |
| Fetch.JsonPathWins | adafruit_pyportal.py:560-567 | with a JSON path set, the regular expressions have no effect on `fetch` |
| Fetch.LocalMatchesNetwork | adafruit_pyportal.py:526-539 | serving the local file's text over the network gives the same result, with only the connection and request added to the trace |
| Fetch.MissingImageKey | adafruit_pyportal.py:569-574 | when the image path names a missing key, `fetch` shows the default background and carries on without an image |
| Fetch.FoundImage | adafruit_pyportal.py:569-595 | a non-empty image URL found in the reply is downloaded from the converter service; `/cache.bmp` becomes the background for an integer content length and the default background is shown for an unreadable one, after which the callback and the text slots follow; a missing content length raises `KeyError` |
| Fetch.ImageLookupFails | adafruit_pyportal.py:569-583 | an integer-key `KeyError` from the image lookup becomes `TypeError`, any other lookup error propagates, and a truthy URL that is not a string raises `TypeError`, each before the callback or any slot; a falsy URL is ignored and `Finish` follows |

## Left out

- Hardware: the display, backlight PWM, SPI, the ESP32 co-processor, the
  NeoPixel status LED, the speaker (`play_file`), the touchscreen, the SD
  card and `supervisor.reload`. The model reduces these to events or
  parameters. A reload is the `Restarted` outcome.
- The HTTP client, sockets, the JSON parser and `ure.search` are parameters
  of `Fetch.Env`. Their own behaviour is not modelled.
- `_connect_esp` (the Wi-Fi association loop) is not modelled; a network
  fetch records a `Connect` event in its place.
- `set_caption`, `preload_font` and `set_backlight` are left out: they only
  configure display objects and use floating-point brightness.
- The `show_QR` display-group handling, the `adafruit_miniqr` encoder, the
  default position and the hide path are left out. Only the layout and the
  scan line are modelled, over a given row of modules.
- `get_local_time`'s assignment of the real-time clock and its HTTP request
  are left out. The URL and the parsing of the reply are modelled.
- `Numerals.ParseInt`: it accepts an optional `+` or `-` sign followed by
  ASCII digits, as Python's `int()` does. Python also accepts surrounding
  whitespace, underscores and non-ASCII digits, and those are not modelled.
- Floating-point JSON numbers are not modelled: `Json` numbers are integers.
- `Fetch.Fetch`: on a raised error it reports the error and the trace, not
  the partially updated display state.
- `Scene.NormalizeTextSlots`: with a single position, a list-valued colour,
  or a non-empty list as wrap or maxlen, raises at configuration time here.
  The source stores it and raises only later, when it is used. An empty
  list is falsy and is read as 0, as the source's later tests read it.
- `Scene.SetText`: an existing label always counts as present. The source
  tests the label's truthiness, and a label that is falsy because it holds
  no glyphs is not modelled. On its error paths (a missing position, a full
  splash group) it returns only the exception, not the state the source
  leaves behind: by then the source has already stored the new label in
  `_text[index]`, and on the replace path it has also popped the splash
  group down to the old label and put back part of it.
- `Fetch.Finish`: the success callback is a `Callback` event that neither
  raises nor changes anything. The source calls foreign code there, before
  any text is drawn, with the very list that the slots and the return value
  then use; an exception from it, or a change it makes to that list, is not
  modelled.
- `Download.ContentLength`: the header lookup is an exact-key map lookup.
  The case-insensitive header dictionary of the HTTP client is not modelled.
- `QrRaster.RasterLine`: requires a non-negative size, because a negative
  size cannot allocate the source's bytearray.
- `Fetch.ShowImage`: a `ValueError` from decoding an unreadable
  `/cache.bmp` as a bitmap is caught by the same handler as a bad content
  length and shows the default background. Bitmap decoding is a display
  operation, so the model does not raise it: a downloaded image with an
  integer content length always becomes the background.
- `Download.Wget`: the bytes it saves are not linked to the image `fetch`
  then shows. `fetch` records a `Download` event, and the headers decide
  whether the download succeeds.
- `image_resize` and `image_position` are left out: they only place display
  objects.
- Garbage collection and timing (`gc.collect`, `time.monotonic`,
  `time.sleep`) are left out.

=== FILE: base.dfy ===
/** Shared vocabulary of the PyPortal model: optional values, results, the
    Python exceptions the pipeline can raise, and bytes. */
module Base {

  datatype Option<+T> = None | Some(value: T)

  /** A Python exception, reduced to the information the pipeline inspects. */
  datatype PyError =
    | KeyError(key: KeyArg)   // dict lookup of an absent key
    | IndexError              // list/str index out of range, pop from empty
    | TypeError               // wrong operand type (subscript, concatenation)
    | ValueError              // unpack count mismatch, int() on a non-number, JSON parse error
    | AttributeError          // method missing on None / non-string
    | RuntimeError            // hardware failures, full display group

  /** The argument of a KeyError: a string key or an integer index. */
  datatype KeyArg = StrKey(s: string) | IntKey(i: int)

  datatype Result<+T> = Ok(value: T) | Err(error: PyError) {
    predicate IsFailure() { Err? }
    function PropagateFailure<U>(): Result<U>
      requires Err?
    {
      Err(error)
    }
    function Extract(): T
      requires Ok?
    {
      value
    }
  }

  newtype byte = x: int | 0 <= x < 256

  /** Concatenation of a sequence of chunks. */
  function Concat<T>(chunks: seq<seq<T>>): seq<T>
  {
    if |chunks| == 0 then [] else Concat(chunks[..|chunks| - 1]) + chunks[|chunks| - 1]
  }

  lemma ConcatSnoc<T>(chunks: seq<seq<T>>, c: seq<T>)
    ensures Concat(chunks + [c]) == Concat(chunks) + c
  {
    assert (chunks + [c])[..|chunks|] == chunks;
  }

  /** Python's `s[:m]`: a negative bound counts from the end, bounds are clipped. */
  function SliceTo<T>(s: seq<T>, m: int): (r: seq<T>)
    ensures |r| <= |s| && r == s[..|r|]
    ensures 0 <= m <= |s| ==> |r| == m
    ensures m >= |s| ==> r == s
    ensures m < 0 ==> |r| == if |s| + m >= 0 then |s| + m else 0
  {
    if m >= 0 then (if m <= |s| then s[..m] else s)
    else if |s| + m >= 0 then s[..|s| + m] else []
  }

  /** Python's normalisation of a possibly negative index into a sequence of length n. */
  function PyIndex(i: int, n: nat): (r: Option<nat>)
    ensures r.Some? <==> -(n as int) <= i < n
    ensures r.Some? ==> r.value < n && (r.value == i || r.value == i + n)
  {
    if 0 <= i < n then Some(i) else if -(n as int) <= i < 0 then Some(n + i) else None
  }
}

=== FILE: download.dfy ===
/** `PyPortal.wget`'s byte accounting: the content length read from the
    response headers, the chunk size requested from the stream, and the loop
    that writes chunks to the file until `remaining` reaches exactly zero.
    The stream is the sequence of chunks the HTTP client would yield; the
    file is the bytes written to it. Status LEDs, progress printing, timing
    and the final `os.stat` are not modelled. */
module Download {
  import opened Base
  import Numerals

  /** The largest chunk `wget` asks the stream for. */
  const MaxChunk: int := 12000

  const ContentLengthHeader: string := "content-length"

  /** What `wget` leaves behind: the chunk size it requested, the file's
      bytes, how many chunks it took from the stream, and the final value of
      `remaining`. */
  datatype Saved = Saved(chunkSize: int, file: seq<byte>, consumed: nat, remaining: int)

  /** `int(r.headers['content-length'])`: KeyError when the header is
      missing, ValueError when it is not an integer. */
  function ContentLength(headers: map<string, string>): (r: Result<int>)
    ensures r.Ok? <==> ContentLengthHeader in headers && Numerals.ParseInt(headers[ContentLengthHeader]).Some?
    ensures r.Ok? ==> Numerals.ParseInt(headers[ContentLengthHeader]) == Some(r.value)
    ensures ContentLengthHeader !in headers ==> r == Err(KeyError(StrKey(ContentLengthHeader)))
    ensures ContentLengthHeader in headers && r.Err? ==> r == Err(ValueError)
  {
    if ContentLengthHeader !in headers then Err(KeyError(StrKey(ContentLengthHeader)))
    else
      match Numerals.ParseInt(headers[ContentLengthHeader])
      case None => Err(ValueError)
      case Some(n) => Ok(n)
  }

  /** `min(remaining, 12000)` at the start of the loop. */
  function ChunkSize(contentLength: int): (n: int)
    ensures n <= contentLength && n <= MaxChunk
    ensures n == contentLength || n == MaxChunk
  {
    if contentLength < MaxChunk then contentLength else MaxChunk
  }

  /** Bytes left to read after the first `j` chunks. */
  function RemainingAfter(contentLength: int, chunks: seq<seq<byte>>, j: nat): int
    requires j <= |chunks|
  {
    contentLength - |Concat(chunks[..j])|
  }

  /** `wget`: a missing `content-length` header raises KeyError and one that
      is not an integer raises ValueError. Otherwise chunks are written in
      order; the loop checks `remaining` only after writing a chunk, and
      stops after the first chunk that brings it to exactly zero, or when
      the stream ends. The file is the concatenation of the chunks taken and
      `remaining` is the content length minus the file's size. */
  method Wget(headers: map<string, string>, chunks: seq<seq<byte>>) returns (r: Result<Saved>)
    ensures ContentLengthHeader !in headers ==> r == Err(KeyError(StrKey(ContentLengthHeader)))
    ensures ContentLengthHeader in headers && Numerals.ParseInt(headers[ContentLengthHeader]).None?
            ==> r == Err(ValueError)
    ensures r.Err? ==> (ContentLengthHeader !in headers
                        || Numerals.ParseInt(headers[ContentLengthHeader]).None?)
    ensures r.Ok? ==>
      (var n := Numerals.ParseInt(headers[ContentLengthHeader]).value;
       var s := r.value;
       && s.chunkSize == ChunkSize(n)
       && s.consumed <= |chunks|
       && s.file == Concat(chunks[..s.consumed])
       && s.remaining == n - |s.file|
       && (s.consumed == |chunks| || (s.consumed >= 1 && s.remaining == 0))
       && (forall j :: 1 <= j < s.consumed ==> RemainingAfter(n, chunks, j) != 0))
    ensures r.Ok? && (forall k :: 0 <= k < |chunks| ==> |chunks[k]| > 0)
            && |Concat(chunks)| == Numerals.ParseInt(headers[ContentLengthHeader]).value
            ==> r.value.consumed == |chunks| && r.value.file == Concat(chunks) && r.value.remaining == 0
  {
    var parsed := ContentLength(headers);
    if parsed.Err? {
      return Err(parsed.error);
    }
    var contentLength := parsed.value;
    var remaining := contentLength;
    var chunkSize := ChunkSize(remaining);
    var file: seq<byte> := [];
    var i := 0;
    while i < |chunks|
      invariant 0 <= i <= |chunks|
      invariant file == Concat(chunks[..i])
      invariant remaining == contentLength - |file|
      invariant forall j :: 1 <= j <= i ==> RemainingAfter(contentLength, chunks, j) != 0
    {
      remaining := remaining - |chunks[i]|;
      file := file + chunks[i];
      ConcatSnoc(chunks[..i], chunks[i]);
      assert chunks[..i] + [chunks[i]] == chunks[..i + 1];
      i := i + 1;
      if remaining == 0 {
        break;
      }
    }
    if (forall k :: 0 <= k < |chunks| ==> |chunks[k]| > 0) && |Concat(chunks)| == contentLength {
      if i < |chunks| {
        WgetExactStream(contentLength, chunks, i);
      }
      assert chunks[..|chunks|] == chunks;
    }
    r := Ok(Saved(chunkSize, file, i, remaining));
  }

  /** Concatenating more chunks never shortens the result, and a prefix of
      non-empty chunks is strictly shorter than the whole. */
  lemma {:induction false} ConcatPrefixShorter(chunks: seq<seq<byte>>, j: nat)
    requires j < |chunks|
    requires forall k :: 0 <= k < |chunks| ==> |chunks[k]| > 0
    ensures |Concat(chunks[..j])| < |Concat(chunks)|
    decreases |chunks| - j
  {
    var n := |chunks|;
    assert chunks[..n][..n - 1] == chunks[..n - 1];
    assert chunks[..n] == chunks;
    if j < n - 1 {
      ConcatPrefixShorter(chunks[..n - 1], j);
      assert chunks[..n - 1][..j] == chunks[..j];
    }
  }

  /** When the stream holds exactly `content-length` bytes in non-empty
      chunks, `remaining` reaches zero only at the last chunk: every chunk is
      written and the file is the whole body. */
  lemma WgetExactStream(n: int, chunks: seq<seq<byte>>, consumed: nat)
    requires forall k :: 0 <= k < |chunks| ==> |chunks[k]| > 0
    requires |Concat(chunks)| == n
    requires 1 <= consumed <= |chunks|
    requires RemainingAfter(n, chunks, consumed) == 0
    ensures consumed == |chunks|
    ensures Concat(chunks[..consumed]) == Concat(chunks)
  {
    if consumed < |chunks| {
      ConcatPrefixShorter(chunks, consumed);
    }
    assert chunks[..|chunks|] == chunks;
  }

  /** What the constructor does to the ESP32 co-processor while probing it:
      read its firmware version, or reset it after a failed read. */
  datatype EspEvent = Probe | Reset

  /** The constructor's `for ... else` probe: up to three attempts to read
      the firmware version, `attempt(k)` telling whether attempt `k` succeeds
      (a failure is the RuntimeError the loop catches). The first success
      ends the loop; when all three fail, RuntimeError is raised. The sleep
      after a failure is not modelled. */
  method FindEsp(attempt: nat -> bool) returns (r: Result<nat>, events: seq<EspEvent>)
    ensures r.Ok? <==> (attempt(0) || attempt(1) || attempt(2))
    ensures r.Ok? ==> r.value < 3 && attempt(r.value)
                      && (forall j :: 0 <= j < r.value ==> !attempt(j))
    ensures r.Err? ==> r.error == RuntimeError
    ensures |events| == (if r.Ok? then 2 * r.value + 1 else 6)
    ensures forall k :: 0 <= k < |events| ==> events[k] == (if k % 2 == 0 then Probe else Reset)
  {
    events := [];
    var k := 0;
    while k < 3
      invariant 0 <= k <= 3
      invariant forall j :: 0 <= j < k ==> !attempt(j)
      invariant |events| == 2 * k
      invariant forall i :: 0 <= i < |events| ==> events[i] == (if i % 2 == 0 then Probe else Reset)
    {
      events := events + [Probe];
      if attempt(k) {
        return Ok(k), events;
      }
      events := events + [Reset];
      k := k + 1;
    }
    r := Err(RuntimeError);
  }
}

=== FILE: fetch.dfy ===
/** `PyPortal.fetch`: obtain the body (from the local file or the network),
    parse it as JSON when a value path or an image path is configured,
    extract the values, show the image the document points to, call the
    success callback, fill in the text slots and return the values.
    The HTTP client, the JSON parser, the regular-expression engine and the
    image download are parameters; status LEDs, printing and `gc` hints are
    not modelled. */
module Fetch {
  import opened Base
  import Strs
  import Numerals
  import WordWrap
  import opened JsonPath
  import Scene
  import Download

  /** The service that converts an image URL into a 320x240 bitmap. */
  const ImageConverterService: string := "http://res.cloudinary.com/schmarty/image/fetch/w_320,h_240,c_fill,f_bmp/"

  /** Where the converted image is cached before it becomes the background. */
  const CacheFile: string := "/cache.bmp"

  /** What `r.json()` does with a body: a document, a ValueError, or a
      MemoryError (after which the board reloads). */
  datatype ParseOutcome = Parsed(doc: Json) | Invalid | OutOfMemory

  /** The world `fetch` talks to: the contents of the local data file, the
      body the server returns for a URL, the JSON parser, `ure.search(re,
      text).group(1)` (None when there is no match), the response headers
      of the image download for a URL, and `str()` of a JSON list or
      object. */
  datatype Env = Env(
    localText: string,
    networkText: string -> string,
    parse: string -> ParseOutcome,
    search: (string, string) -> Option<string>,
    imageHeaders: string -> map<string, string>,
    repr: Json -> string)

  /** The configuration `fetch` reads: the data URL, the normalised
      `json_path` (None when falsy), `regexp_path` (empty when falsy),
      `image_json_path` (empty when falsy), `default_bg`, whether a success
      callback is registered, and whether the local data file was found at
      construction. */
  datatype Config = Config(
    url: string,
    jsonPaths: Option<seq<Path>>,
    regexps: seq<string>,
    imagePath: Path,
    defaultBg: Option<string>,
    hasCallback: bool,
    useLocal: bool)

  /** `values`: a list of extracted values, or the body text itself when no
      path is configured (then `values[i]` is the i-th character). */
  datatype Values = Listed(items: seq<Json>) | RawText(text: string)

  /** The visible effects of `fetch`, in order. */
  datatype Event = Connect | Get(url: string) | Download(url: string) | Callback(values: Values)

  /** The display state `fetch` updates. */
  datatype PortalState = PortalState(text: Scene.TextState, bg: Scene.BgState)

  /** What `fetch` returns: the single value, or all of `values`. */
  datatype Returned = Scalar(value: Json) | Whole(values: Values)

  /** How a call to `fetch` ends: it returns, raises an exception (the
      display state is then not tracked), or reloads the board. Each carries
      the effects that happened first. */
  datatype Outcome =
    | Done(ret: Returned, st: PortalState, trace: seq<Event>)
    | Raised(error: PyError, trace: seq<Event>)
    | Restarted(trace: seq<Event>)

  function Len(v: Values): nat
  {
    match v
    case Listed(items) => |items|
    case RawText(text) => |text|
  }

  /** `values[i]` for `i >= 0`: IndexError past the end; a character of the
      raw text is a one-character string. */
  function Item(v: Values, i: nat): (r: Result<Json>)
    ensures r.Ok? <==> i < Len(v)
    ensures r.Err? ==> r.error == IndexError
    ensures r.Ok? && v.RawText? ==> r.value == JStr([v.text[i]])
    ensures r.Ok? && v.Listed? ==> r.value == v.items[i]
  {
    if i >= Len(v) then Err(IndexError)
    else
      match v
      case Listed(items) => Ok(items[i])
      case RawText(text) => Ok(JStr([text[i]]))
  }

  /** Python truthiness of a JSON value. */
  predicate Truthy(v: Json)
  {
    match v
    case JNull => false
    case JBool(b) => b
    case JNum(n) => n != 0
    case JStr(s) => |s| > 0
    case JArr(items) => |items| > 0
    case JObj(fields) => |fields| > 0
  }

  /** The body `fetch` works on. */
  function Body(cfg: Config, env: Env): string
  {
    if cfg.useLocal then env.localText else env.networkText(cfg.url)
  }

  /** The effects of obtaining the body: none for the local file, otherwise
      connecting to the access point and requesting the URL. */
  function NetworkEvents(cfg: Config): seq<Event>
  {
    if cfg.useLocal then [] else [Connect, Get(cfg.url)]
  }

  /** JSON is needed when a value path or an image path is configured. */
  predicate NeedsJson(cfg: Config)
  {
    cfg.jsonPaths.Some? || |cfg.imagePath| > 0
  }

  /** `[ure.search(re, text).group(1) for re in regexps]`: a regular
      expression that does not match leaves `None`, whose `group` raises
      AttributeError. */
  function SearchAll(search: (string, string) -> Option<string>, regexps: seq<string>, text: string): (r: Result<seq<Json>>)
    ensures r.Ok? <==> forall k :: 0 <= k < |regexps| ==> search(regexps[k], text).Some?
    ensures r.Ok? ==>
      && |r.value| == |regexps|
      && forall k :: 0 <= k < |regexps| ==> r.value[k] == JStr(search(regexps[k], text).value)
    ensures r.Err? ==> r.error == AttributeError
  {
    if |regexps| == 0 then Ok([])
    else
      match search(regexps[0], text)
      case None => Err(AttributeError)
      case Some(g) =>
        match SearchAll(search, regexps[1..], text)
        case Err(e) =>
          assert forall k :: 1 <= k < |regexps| ==> regexps[k] == regexps[1..][k - 1];
          Err(e)
        case Ok(gs) =>
          assert forall k :: 1 <= k < |regexps| ==> regexps[k] == regexps[1..][k - 1];
          Ok([JStr(g)] + gs)
  }

  /** The extraction: `json_path` wins over `regexp_path`, and with neither
      the body text itself is `values`. */
  function ExtractValues(cfg: Config, env: Env, body: string, doc: Option<Json>): (r: Result<Values>)
    requires cfg.jsonPaths.Some? ==> doc.Some?
    ensures cfg.jsonPaths.Some? ==>
      (r.Ok? <==> forall k :: 0 <= k < |cfg.jsonPaths.value| ==> Traverse(doc.value, cfg.jsonPaths.value[k]).Ok?)
    ensures cfg.jsonPaths.Some? && r.Ok? ==>
      && r.value.Listed? && |r.value.items| == |cfg.jsonPaths.value|
      && forall k :: 0 <= k < |cfg.jsonPaths.value| ==>
           r.value.items[k] == Traverse(doc.value, cfg.jsonPaths.value[k]).value
    ensures cfg.jsonPaths.None? && |cfg.regexps| > 0 ==>
      (r.Ok? <==> forall k :: 0 <= k < |cfg.regexps| ==> env.search(cfg.regexps[k], body).Some?)
    ensures cfg.jsonPaths.None? && |cfg.regexps| > 0 && r.Ok? ==>
      && r.value.Listed? && |r.value.items| == |cfg.regexps|
      && forall k :: 0 <= k < |cfg.regexps| ==> r.value.items[k] == JStr(env.search(cfg.regexps[k], body).value)
    ensures cfg.jsonPaths.None? && |cfg.regexps| == 0 ==> r == Ok(RawText(body))
  {
    if cfg.jsonPaths.Some? then
      var vs :- TraverseAll(doc.value, cfg.jsonPaths.value);
      Ok(Listed(vs))
    else if |cfg.regexps| > 0 then
      var vs :- SearchAll(env.search, cfg.regexps, body);
      Ok(Listed(vs))
    else Ok(RawText(body))
  }

  /** The image lookup: the value at `image_json_path`, if any. A KeyError
      is reported and the default background shown instead; its report
      concatenates the key to a string, which raises TypeError for an
      integer key. Every other exception propagates. */
  function FindImage(cfg: Config, doc: Option<Json>, bg: Scene.BgState): (r: Result<(Option<Json>, Scene.BgState)>)
    requires |cfg.imagePath| > 0 ==> doc.Some?
    ensures |cfg.imagePath| == 0 ==> r == Ok((None, bg))
    ensures |cfg.imagePath| > 0 && Traverse(doc.value, cfg.imagePath).Ok? ==>
      r == Ok((Some(Traverse(doc.value, cfg.imagePath).value), bg))
    ensures |cfg.imagePath| > 0 && Traverse(doc.value, cfg.imagePath).Err? ==>
      (var e := Traverse(doc.value, cfg.imagePath).error;
       && (e.KeyError? && e.key.StrKey? ==>
             match Scene.SetBackground(bg, cfg.defaultBg)
             case Ok(bg1) => r == Ok((None, bg1))
             case Err(e1) => r == Err(e1))
       && (e.KeyError? && e.key.IntKey? ==> r == Err(TypeError))
       && (!e.KeyError? ==> r == Err(e)))
  {
    if |cfg.imagePath| == 0 then Ok((None, bg))
    else
      match Traverse(doc.value, cfg.imagePath)
      case Ok(u) => Ok((Some(u), bg))
      case Err(e) =>
        if e.KeyError? && e.key.StrKey? then
          var bg1 :- Scene.SetBackground(bg, cfg.defaultBg);
          Ok((None, bg1))
        else if e.KeyError? then Err(TypeError)
        else Err(e)
  }

  /** Showing the image found: nothing for a falsy value; a non-string
      cannot be appended to the converter URL (TypeError); otherwise the
      converted image is downloaded to the cache file and becomes the
      background. A ValueError from the download (an unreadable content
      length) is reported and the default background shown; a KeyError
      (no content length at all) propagates. */
  function ShowImage(cfg: Config, env: Env, url: Option<Json>, bg: Scene.BgState): (r: (Result<Scene.BgState>, seq<Event>))
    ensures url.None? || !Truthy(url.value) ==> r == (Ok(bg), [])
    ensures url.Some? && Truthy(url.value) && !url.value.JStr? ==> r == (Err(TypeError), [])
    ensures url.Some? && Truthy(url.value) && url.value.JStr? ==>
      && r.1 == [Download(ImageConverterService + url.value.s)]
      && (Download.ContentLength(env.imageHeaders(ImageConverterService + url.value.s)).Ok? ==>
            r.0 == Scene.SetBackground(bg, Some(CacheFile)))
    // an unreadable content length falls back to the default background;
    // a missing one propagates
    ensures url.Some? && Truthy(url.value) && url.value.JStr? ==>
      var h := env.imageHeaders(ImageConverterService + url.value.s);
      && (Download.ContentLengthHeader in h && Numerals.ParseInt(h[Download.ContentLengthHeader]).None? ==>
            r.0 == Scene.SetBackground(bg, cfg.defaultBg))
      && (Download.ContentLengthHeader !in h ==>
            r.0 == Err(KeyError(StrKey(Download.ContentLengthHeader))))
  {
    if url.None? || !Truthy(url.value) then (Ok(bg), [])
    else if !url.value.JStr? then (Err(TypeError), [])
    else
      var full := ImageConverterService + url.value.s;
      match Download.ContentLength(env.imageHeaders(full))
      case Ok(_) => (Scene.SetBackground(bg, Some(CacheFile)), [Download(full)])
      case Err(e) =>
        if e.ValueError? then (Scene.SetBackground(bg, cfg.defaultBg), [Download(full)])
        else (Err(e), [Download(full)])
  }

  /** A value prepared for a text slot: a string, or a non-string value
      passed through. */
  datatype Shown = Text(s: string) | NonText(v: Json)

  /** `"{:,d}".format(int(v))`, or `v` itself when `int()` raises
      TypeError or ValueError. Booleans are integers in Python. */
  function FormatValue(v: Json): (r: Shown)
    ensures v.JNum? ==> r == Text(Numerals.FormatThousands(v.n))
    ensures v.JBool? ==> r == Text(if v.b then "1" else "0")
    ensures v.JStr? && Numerals.ParseInt(v.s).Some? ==> r == Text(Numerals.FormatThousands(Numerals.ParseInt(v.s).value))
    ensures v.JStr? && Numerals.ParseInt(v.s).None? ==> r == Text(v.s)
    ensures v.JNull? || v.JArr? || v.JObj? ==> r == NonText(v)
  {
    match v
    case JNum(n) => Text(Numerals.FormatThousands(n))
    case JBool(b) =>
      FormatSmall(if b then 1 else 0);
      Text(Numerals.FormatThousands(if b then 1 else 0))
    case JStr(s) =>
      (match Numerals.ParseInt(s)
       case Some(n) => Text(Numerals.FormatThousands(n))
       case None => Text(s))
    case _ => NonText(v)
  }

  /** One-digit numbers have no separator. */
  lemma FormatSmall(n: nat)
    requires n < 10
    ensures Numerals.FormatThousands(n) == [Numerals.DigitChar(n)]
  {
  }

  /** `str(v)` as `set_text` applies it. */
  function StrOf(env: Env, d: Shown): string
  {
    match d
    case Text(s) => s
    case NonText(v) => if v.JNull? then "None" else env.repr(v)
  }

  /** The text slot `i` receives: the formatted value, wrapped with newlines
      between the lines when the slot has a wrap width (a non-string has no
      `split`: AttributeError). */
  function SlotText(env: Env, slot: Scene.Slot, v: Json): (r: Result<string>)
    ensures slot.wrap == 0 ==> r == Ok(StrOf(env, FormatValue(v)))
    ensures slot.wrap != 0 && FormatValue(v).NonText? ==> r == Err(AttributeError)
    ensures slot.wrap != 0 && FormatValue(v).Text? ==>
      r == Ok(Strs.Join(WordWrap.WrapNicely(FormatValue(v).s, slot.wrap), '\n'))
  {
    var shown := FormatValue(v);
    if slot.wrap == 0 then Ok(StrOf(env, shown))
    else if shown.NonText? then Err(AttributeError)
    else Ok(Strs.Join(WordWrap.WrapNicely(shown.s, slot.wrap), '\n'))
  }

  /** Slot `i` shows `values[i]`, formatted and wrapped as the slot asks. */
  predicate SlotShows(env: Env, values: Values, st: Scene.TextState, i: nat)
  {
    && i < Len(values) && i < |st.slots|
    && SlotText(env, st.slots[i], Item(values, i).value).Ok?
    && Scene.Shows(st, i, SlotText(env, st.slots[i], Item(values, i).value).value)
  }

  /** After drawing with a text font, there was a value for every slot, and
      every slot that shows anything (a label or a position for one) shows
      its value. */
  predicate ShowsAll(env: Env, values: Values, before: Scene.TextState, after: Scene.TextState)
  {
    before.hasFont ==>
      && |before.areas| <= Len(values)
      && forall j :: 0 <= j < |before.areas| && j < |before.slots|
                     && (before.areas[j].Some? || before.slots[j].position.Some?) ==>
           SlotShows(env, values, after, j)
  }

  /** With a wrap width, the slot's lines are `wrap_nicely`'s lines, and
      spaces in place of the newlines give back the formatted text behind
      one leading space: wrapping loses no words. */
  lemma SlotTextLines(env: Env, slot: Scene.Slot, v: Json, s: string)
    requires slot.wrap != 0 && FormatValue(v) == Text(s)
    requires |s| >= 1 && s[|s| - 1] != ' ' && '\n' !in s
    ensures SlotText(env, slot, v).Ok?
    ensures Strs.Split(SlotText(env, slot, v).value, '\n') == WordWrap.WrapNicely(s, slot.wrap)
    ensures Strs.Join(Strs.Split(SlotText(env, slot, v).value, '\n'), ' ') == " " + s
  {
    var lines := WordWrap.WrapNicely(s, slot.wrap);
    WordWrap.WrapNicelyJoin(s, slot.wrap);
    forall k | 0 <= k < |lines|
      ensures '\n' !in lines[k]
    {
      if '\n' in lines[k] {
        Strs.InJoin(lines, ' ', k, '\n');
        assert false;
      }
    }
    Strs.SplitJoin(lines, '\n');
  }

  /** One pass of the slot loop: `values[i]`, formatted (and wrapped), put
      into slot `i`. Only a value and a slot that exist can be rendered. */
  function RenderSlot(env: Env, values: Values, st: Scene.TextState, i: nat): (r: Result<Scene.TextState>)
    ensures r.Ok? ==> i < Len(values) && i < |st.slots|
    ensures i >= Len(values) ==> r == Err(IndexError)
    ensures r.Ok? ==> r.value.slots == st.slots && r.value.hasFont == st.hasFont
    ensures r.Ok? ==> |r.value.areas| == |st.areas|
    ensures r.Ok? && st.hasFont ==> i < |st.areas|
    // slot `i` now shows `values[i]`, if it shows anything; no other slot changes
    ensures r.Ok? && st.hasFont && (st.areas[i].Some? || st.slots[i].position.Some?) ==>
      SlotShows(env, values, r.value, i)
    ensures r.Ok? ==> forall j :: 0 <= j < |st.areas| && j != i ==> r.value.areas[j] == st.areas[j]
  {
    var v :- Item(values, i);
    if i >= |st.slots| then Err(IndexError)
    else
      var text :- SlotText(env, st.slots[i], v);
      Scene.SetText(st, text, i)
  }

  /** The loop `for i in range(n)` over the text slots, from slot `i` on.
      It completes only when every slot it visits has a value. */
  function RenderTexts(env: Env, values: Values, st: Scene.TextState, i: nat, n: nat): (r: Result<Scene.TextState>)
    ensures r.Ok? && i < n ==> n <= Len(values) && n <= |st.slots|
    ensures r.Ok? && st.hasFont && i < n ==> n <= |st.areas|
    ensures r.Ok? ==> r.value.slots == st.slots && r.value.hasFont == st.hasFont
    ensures r.Ok? ==> |r.value.areas| == |st.areas|
    // every visited slot that shows anything shows its value; the others keep theirs
    ensures r.Ok? && st.hasFont ==>
      forall j :: i <= j < n && (st.areas[j].Some? || st.slots[j].position.Some?) ==>
        SlotShows(env, values, r.value, j)
    ensures r.Ok? ==> forall j :: 0 <= j < |st.areas| && !(i <= j < n) ==> r.value.areas[j] == st.areas[j]
    decreases n - i
  {
    if i >= n then Ok(st)
    else
      var st1 :- RenderSlot(env, values, st, i);
      RenderTexts(env, values, st1, i + 1, n)
  }

  /** Filling in the text slots keeps the text state's invariant. */
  lemma {:induction false} RenderTextsKeepsInv(env: Env, values: Values, st: Scene.TextState, i: nat, n: nat)
    requires Scene.TextInv(st)
    ensures var r := RenderTexts(env, values, st, i, n); r.Ok? ==> Scene.TextInv(r.value)
    decreases n - i
  {
    if i < n {
      var st1 := RenderSlot(env, values, st, i);
      if st1.Ok? {
        var v := Item(values, i).value;
        Scene.SetTextKeepsInv(st, SlotText(env, st.slots[i], v).value, i);
        RenderTextsKeepsInv(env, values, st1.value, i + 1, n);
      }
    }
  }

  /** `return values[0] if len(values) == 1 else values`. */
  function ReturnValue(values: Values): (r: Returned)
    ensures Len(values) == 1 <==> r.Scalar?
    ensures r.Scalar? ==> Item(values, 0) == Ok(r.value)
    ensures r.Whole? ==> r.values == values
  {
    if Len(values) == 1 then Scalar(Item(values, 0).value) else Whole(values)
  }

  /** The part of `fetch` after the image: the callback, then the text
      slots (only when a text font is loaded), then the return value. */
  function Finish(cfg: Config, env: Env, values: Values, st: PortalState, trace: seq<Event>): (out: Outcome)
    ensures out.trace == trace + (if cfg.hasCallback then [Callback(values)] else [])
    ensures out.Restarted? == false
    ensures out.Done? ==> out.ret == ReturnValue(values) && out.st.bg == st.bg
    // without a text font no slot is touched
    ensures !st.text.hasFont ==> out.Done? && out.st == st
    // with one, the call completes exactly when every slot can be filled:
    // there are enough values, and then every slot that shows anything
    // shows its value
    ensures out.Done? <==> (!st.text.hasFont || RenderTexts(env, values, st.text, 0, |st.text.areas|).Ok?)
    ensures out.Done? ==> ShowsAll(env, values, st.text, out.st.text)
  {
    var t := trace + (if cfg.hasCallback then [Callback(values)] else []);
    if !st.text.hasFont then Done(ReturnValue(values), st, t)
    else
      match RenderTexts(env, values, st.text, 0, |st.text.areas|)
      case Err(e) => Raised(e, t)
      case Ok(text) => Done(ReturnValue(values), PortalState(text, st.bg), t)
  }

  /** The values `fetch` extracts: defined when the body parses (if it has
      to) and every path or expression finds its value. */
  function Extracted(cfg: Config, env: Env): Option<Values>
  {
    var body := Body(cfg, env);
    if NeedsJson(cfg) && !env.parse(body).Parsed? then None
    else
      var doc := if NeedsJson(cfg) then Some(env.parse(body).doc) else None;
      match ExtractValues(cfg, env, body, doc)
      case Ok(v) => Some(v)
      case Err(_) => None
  }

  /** `fetch()`. */
  function Fetch(cfg: Config, env: Env, st: PortalState): (out: Outcome)
    // the body is parsed only when a path needs it; failures end the call
    ensures NeedsJson(cfg) && env.parse(Body(cfg, env)).Invalid? ==> out == Raised(ValueError, NetworkEvents(cfg))
    ensures NeedsJson(cfg) && env.parse(Body(cfg, env)).OutOfMemory? ==> out == Restarted(NetworkEvents(cfg))
    ensures out.Restarted? ==> NeedsJson(cfg) && env.parse(Body(cfg, env)).OutOfMemory?
    // the network is used exactly when the local file is not
    ensures |out.trace| >= |NetworkEvents(cfg)| && out.trace[..|NetworkEvents(cfg)|] == NetworkEvents(cfg)
    ensures cfg.useLocal ==> forall k :: 0 <= k < |out.trace| ==> !out.trace[k].Connect? && !out.trace[k].Get?
    // an image download happens only for an image path
    ensures |cfg.imagePath| == 0 ==> forall k :: 0 <= k < |out.trace| ==> !out.trace[k].Download?
    // a call that returns, returns the extracted values, and the callback
    // (when registered) saw those values last
    ensures out.Done? ==> Extracted(cfg, env).Some? && out.ret == ReturnValue(Extracted(cfg, env).value)
    ensures out.Done? && cfg.hasCallback ==>
      |out.trace| >= 1 && out.trace[|out.trace| - 1] == Callback(Extracted(cfg, env).value)
    ensures !cfg.hasCallback ==> forall k :: 0 <= k < |out.trace| ==> !out.trace[k].Callback?
    // without an image path, the rest of the call is `Finish` on the extracted values
    ensures |cfg.imagePath| == 0 && Extracted(cfg, env).Some? ==>
      out == Finish(cfg, env, Extracted(cfg, env).value, st, NetworkEvents(cfg))
    // with or without an image, a completed call has drawn every slot's value
    ensures out.Done? ==> ShowsAll(env, Extracted(cfg, env).value, st.text, out.st.text)
  {
    var body := Body(cfg, env);
    var t0 := NetworkEvents(cfg);
    if NeedsJson(cfg) && env.parse(body).Invalid? then Raised(ValueError, t0)
    else if NeedsJson(cfg) && env.parse(body).OutOfMemory? then Restarted(t0)
    else
      var doc := if NeedsJson(cfg) then Some(env.parse(body).doc) else None;
      AfterParseTrace(cfg, env, body, doc, st);
      AfterParseValues(cfg, env, body, doc, st);
      ExtractThenFinish(cfg, env, body, doc, st, t0)
  }

  /** The effects `fetch` records once the body is parsed: the network's,
      then downloads only for an image path, then the callback only when it
      is registered. */
  lemma AfterParseTrace(cfg: Config, env: Env, body: string, doc: Option<Json>, st: PortalState)
    requires NeedsJson(cfg) ==> doc.Some?
    ensures var t0 := NetworkEvents(cfg);
      var out := ExtractThenFinish(cfg, env, body, doc, st, t0);
      && (cfg.useLocal ==> forall k :: 0 <= k < |out.trace| ==> !out.trace[k].Connect? && !out.trace[k].Get?)
      && (|cfg.imagePath| == 0 ==> forall k :: 0 <= k < |out.trace| ==> !out.trace[k].Download?)
      && (!cfg.hasCallback ==> forall k :: 0 <= k < |out.trace| ==> !out.trace[k].Callback?)
  {
    var t0 := NetworkEvents(cfg);
    var out := ExtractThenFinish(cfg, env, body, doc, st, t0);
    assert forall k :: 0 <= k < |t0| ==> !t0[k].Download? && !t0[k].Callback?;
    forall k | 0 <= k < |t0|
      ensures out.trace[k] == t0[k]
    {
      assert out.trace[..|t0|][k] == out.trace[k];
    }
  }

  /** What `fetch` returns once the body is parsed, in terms of the values
      extracted from it. */
  lemma AfterParseValues(cfg: Config, env: Env, body: string, doc: Option<Json>, st: PortalState)
    requires NeedsJson(cfg) ==> doc.Some?
    requires body == Body(cfg, env)
    requires NeedsJson(cfg) ==> env.parse(body).Parsed?
    requires doc == (if NeedsJson(cfg) then Some(env.parse(body).doc) else None)
    ensures Extracted(cfg, env) == Found(ExtractValues(cfg, env, body, doc))
  {
  }

  /** The values of a successful extraction. */
  function Found(r: Result<Values>): Option<Values>
  {
    match r
    case Ok(v) => Some(v)
    case Err(_) => None
  }

  /** The part of `fetch` after parsing: the extraction, whose failure ends
      the call, then the image and `Finish`. It adds no network effects and
      returns the values extracted. */
  function ExtractThenFinish(cfg: Config, env: Env, body: string, doc: Option<Json>, st: PortalState, t0: seq<Event>): (out: Outcome)
    requires NeedsJson(cfg) ==> doc.Some?
    ensures out.Restarted? == false
    ensures |out.trace| >= |t0| && out.trace[..|t0|] == t0
    ensures forall k :: |t0| <= k < |out.trace| ==> !out.trace[k].Connect? && !out.trace[k].Get?
    ensures ExtractValues(cfg, env, body, doc).Err? ==> out == Raised(ExtractValues(cfg, env, body, doc).error, t0)
    ensures out.Done? ==>
      && ExtractValues(cfg, env, body, doc).Ok?
      && out.ret == ReturnValue(ExtractValues(cfg, env, body, doc).value)
      && ShowsAll(env, ExtractValues(cfg, env, body, doc).value, st.text, out.st.text)
    ensures out.Done? && cfg.hasCallback ==>
      |out.trace| >= 1 && out.trace[|out.trace| - 1] == Callback(ExtractValues(cfg, env, body, doc).value)
    ensures !cfg.hasCallback ==> forall k :: |t0| <= k < |out.trace| ==> !out.trace[k].Callback?
    ensures |cfg.imagePath| == 0 ==> forall k :: |t0| <= k < |out.trace| ==> !out.trace[k].Download?
    ensures |cfg.imagePath| == 0 && ExtractValues(cfg, env, body, doc).Ok? ==>
      out == Finish(cfg, env, ExtractValues(cfg, env, body, doc).value, st, t0)
  {
    match ExtractValues(cfg, env, body, doc)
    case Err(e) => Raised(e, t0)
    case Ok(values) => ImageThenFinish(cfg, env, values, doc, st, t0)
  }

  /** The part of `fetch` after the extraction: the image lookup and its
      download, then `Finish`. It adds only downloads and the callback to
      the effects so far, and returns the values it is given. */
  function ImageThenFinish(cfg: Config, env: Env, values: Values, doc: Option<Json>, st: PortalState, t0: seq<Event>): (out: Outcome)
    requires |cfg.imagePath| > 0 ==> doc.Some?
    ensures out.Restarted? == false
    ensures |out.trace| >= |t0| && out.trace[..|t0|] == t0
    ensures forall k :: |t0| <= k < |out.trace| ==> !out.trace[k].Connect? && !out.trace[k].Get?
    ensures |cfg.imagePath| == 0 ==> out == Finish(cfg, env, values, st, t0)
    ensures out.Done? ==> out.ret == ReturnValue(values)
    ensures out.Done? && cfg.hasCallback ==> |out.trace| >= 1 && out.trace[|out.trace| - 1] == Callback(values)
    ensures !cfg.hasCallback ==> forall k :: |t0| <= k < |out.trace| ==> !out.trace[k].Callback?
    // whatever the image step did, a completed call has drawn every slot
    ensures out.Done? ==> ShowsAll(env, values, st.text, out.st.text)
    // a failing image step ends the call with its exception
    ensures FindImage(cfg, doc, st.bg).Err? ==> out == Raised(FindImage(cfg, doc, st.bg).error, t0)
    ensures FindImage(cfg, doc, st.bg).Ok? ==>
      (var shown := ShowImage(cfg, env, FindImage(cfg, doc, st.bg).value.0, FindImage(cfg, doc, st.bg).value.1);
       shown.0.Err? ==> out == Raised(shown.0.error, t0 + shown.1))
  {
    match FindImage(cfg, doc, st.bg)
    case Err(e) => Raised(e, t0)
    case Ok((url, bg1)) =>
      var (shown, t1) := ShowImage(cfg, env, url, bg1);
      assert (t0 + t1)[..|t0|] == t0;
      match shown
      case Err(e) => Raised(e, t0 + t1)
      case Ok(bg2) =>
        var out := Finish(cfg, env, values, PortalState(st.text, bg2), t0 + t1);
        assert out.trace[..|t0|] == t0;
        out
  }

  /** A value path that fails ends `fetch` with its exception, before the
      image or the text slots are touched. */
  lemma ExtractionFails(cfg: Config, env: Env, st: PortalState, doc: Json, e: PyError)
    requires cfg.jsonPaths.Some? && env.parse(Body(cfg, env)) == Parsed(doc)
    requires ExtractValues(cfg, env, Body(cfg, env), Some(doc)) == Err(e)
    ensures Fetch(cfg, env, st) == Raised(e, NetworkEvents(cfg))
  {
    assert NeedsJson(cfg);
  }

  /** With one value path, the values are the one value it finds, or its
      exception. */
  lemma OnePathValues(cfg: Config, env: Env, body: string, doc: Json, p: Path)
    requires cfg.jsonPaths == Some([p])
    ensures Traverse(doc, p).Ok? ==> ExtractValues(cfg, env, body, Some(doc)) == Ok(Listed([Traverse(doc, p).value]))
    ensures Traverse(doc, p).Err? ==> ExtractValues(cfg, env, body, Some(doc)) == Err(Traverse(doc, p).error)
  {
    assert [p][0] == p;
    var r := ExtractValues(cfg, env, body, Some(doc));
    if Traverse(doc, p).Ok? {
      assert r.Ok?;
      assert r.value.items == [Traverse(doc, p).value];
    }
  }

  /** A single flat `json_path` means the same as a one-element list of
      paths, and makes `fetch` return the one value it finds rather than a
      list; a failing lookup raises before anything else happens. */
  lemma OnePathReturnsScalar(cfg: Config, env: Env, st: PortalState, p: Path, doc: Json)
    requires |p| > 0 && cfg.jsonPaths == NormalizeJsonPath(OnePath(p))
    requires env.parse(Body(cfg, env)) == Parsed(doc)
    ensures NormalizeJsonPath(OnePath(p)) == NormalizeJsonPath(ManyPaths([p]))
    ensures Traverse(doc, p).Ok? ==> Extracted(cfg, env) == Some(Listed([Traverse(doc, p).value]))
    ensures Fetch(cfg, env, st).Done? ==>
      Traverse(doc, p).Ok? && Fetch(cfg, env, st).ret == Scalar(Traverse(doc, p).value)
    ensures Traverse(doc, p).Err? ==> Fetch(cfg, env, st) == Raised(Traverse(doc, p).error, NetworkEvents(cfg))
  {
    var body := Body(cfg, env);
    assert NeedsJson(cfg) && cfg.jsonPaths == Some([p]);
    OnePathValues(cfg, env, body, doc, p);
    if Traverse(doc, p).Ok? {
      assert Extracted(cfg, env) == Some(Listed([Traverse(doc, p).value]));
    } else {
      ExtractionFails(cfg, env, st, doc, Traverse(doc, p).error);
    }
  }

  /** The slot loop reads nothing of the world but `str()` of lists and
      objects. */
  lemma RenderSlotUsesRepr(env: Env, env2: Env, values: Values, st: Scene.TextState, i: nat)
    requires env2.repr == env.repr
    ensures RenderSlot(env, values, st, i) == RenderSlot(env2, values, st, i)
  {
    if Item(values, i).Ok? && i < |st.slots| {
      var v := Item(values, i).value;
      assert StrOf(env, FormatValue(v)) == StrOf(env2, FormatValue(v));
    }
  }

  lemma {:induction false} RenderTextsUsesRepr(env: Env, env2: Env, values: Values, st: Scene.TextState, i: nat, n: nat)
    requires env2.repr == env.repr
    ensures RenderTexts(env, values, st, i, n) == RenderTexts(env2, values, st, i, n)
    decreases n - i
  {
    if i < n {
      RenderSlotUsesRepr(env, env2, values, st, i);
      var st1 := RenderSlot(env, values, st, i);
      if st1.Ok? {
        RenderTextsUsesRepr(env, env2, values, st1.value, i + 1, n);
      }
    }
  }

  /** Without a value path or an image path the body is never parsed: the
      parser has no influence on the outcome. */
  lemma FetchWithoutJson(cfg: Config, env: Env, st: PortalState, parse: string -> ParseOutcome)
    requires !NeedsJson(cfg)
    ensures Fetch(cfg, env, st) == Fetch(cfg, env.(parse := parse), st)
  {
    var env2 := env.(parse := parse);
    RenderTextsUsesRepr(env, env2, RawText(Body(cfg, env)), st.text, 0, |st.text.areas|);
    if |cfg.regexps| > 0 {
      var r := SearchAll(env.search, cfg.regexps, Body(cfg, env));
      if r.Ok? {
        RenderTextsUsesRepr(env, env2, Listed(r.value), st.text, 0, |st.text.areas|);
      }
    }
  }

  /** `json_path` takes precedence: when it is set, `regexp_path` has no
      influence on the outcome. */
  lemma JsonPathWins(cfg: Config, env: Env, st: PortalState, regexps: seq<string>)
    requires cfg.jsonPaths.Some?
    ensures Fetch(cfg, env, st) == Fetch(cfg.(regexps := regexps), env, st)
  {
    var cfg2 := cfg.(regexps := regexps);
    var body := Body(cfg, env);
    assert Body(cfg2, env) == body && NetworkEvents(cfg2) == NetworkEvents(cfg);
    if env.parse(body).Parsed? {
      var doc := Some(env.parse(body).doc);
      assert ExtractValues(cfg, env, body, doc) == ExtractValues(cfg2, env, body, doc);
      assert FindImage(cfg, doc, st.bg) == FindImage(cfg2, doc, st.bg);
      var found := FindImage(cfg, doc, st.bg);
      var values := ExtractValues(cfg, env, body, doc);
      if found.Ok? && values.Ok? {
        var (url, bg1) := found.value;
        assert ShowImage(cfg, env, url, bg1) == ShowImage(cfg2, env, url, bg1);
        var (shown, t1) := ShowImage(cfg, env, url, bg1);
        if shown.Ok? {
          var t := NetworkEvents(cfg) + t1;
          assert Finish(cfg, env, values.value, PortalState(st.text, shown.value), t)
              == Finish(cfg2, env, values.value, PortalState(st.text, shown.value), t);
        }
      }
    }
  }

  /** An outcome with effects in front of its trace. */
  function Behind(pre: seq<Event>, out: Outcome): (r: Outcome)
    ensures r.trace == pre + out.trace
  {
    out.(trace := pre + out.trace)
  }

  lemma FinishBehind(cfg: Config, env: Env, env2: Env, values: Values, st: PortalState, pre: seq<Event>, t: seq<Event>)
    requires env2.repr == env.repr
    ensures Finish(cfg, env2, values, st, pre + t) == Behind(pre, Finish(cfg, env, values, st, t))
  {
    RenderTextsUsesRepr(env, env2, values, st.text, 0, |st.text.areas|);
    var c := if cfg.hasCallback then [Callback(values)] else [];
    assert pre + t + c == pre + (t + c);
  }

  /** Reading the local data file behaves like a network request that
      returns the file's contents, minus the connection and the request:
      the same values, display updates, exceptions and later effects. */
  lemma LocalMatchesNetwork(cfg: Config, env: Env, st: PortalState)
    requires cfg.useLocal
    ensures var net := cfg.(useLocal := false);
      var served := env.(networkText := _ => env.localText);
      Fetch(net, served, st) == Behind([Connect, Get(cfg.url)], Fetch(cfg, env, st))
  {
    var net := cfg.(useLocal := false);
    var served := env.(networkText := _ => env.localText);
    var pre := [Connect, Get(cfg.url)];
    var body := Body(cfg, env);
    assert Body(net, served) == body;
    assert NetworkEvents(cfg) == [] && NetworkEvents(net) == pre;
    assert pre + [] == pre;
    if NeedsJson(cfg) && !env.parse(body).Parsed? {
      return;
    }
    var doc := if NeedsJson(cfg) then Some(env.parse(body).doc) else None;
    AfterParseBehind(cfg, env, body, doc, st, pre);
  }

  /** Once the body is in hand, where it came from makes no difference:
      effects recorded before it stay in front of everything that follows. */
  lemma AfterParseBehind(cfg: Config, env: Env, body: string, doc: Option<Json>, st: PortalState, pre: seq<Event>)
    requires NeedsJson(cfg) ==> doc.Some?
    ensures var net := cfg.(useLocal := false);
      var served := env.(networkText := _ => env.localText);
      ExtractThenFinish(net, served, body, doc, st, pre) == Behind(pre, ExtractThenFinish(cfg, env, body, doc, st, []))
  {
    var net := cfg.(useLocal := false);
    var served := env.(networkText := _ => env.localText);
    var values := ExtractValues(cfg, env, body, doc);
    assert ExtractValues(net, served, body, doc) == values;
    assert pre + [] == pre;
    if values.Err? {
      return;
    }
    var found := FindImage(cfg, doc, st.bg);
    assert FindImage(net, doc, st.bg) == found;
    if found.Err? {
      return;
    }
    var (url, bg1) := found.value;
    var (shown, t1) := ShowImage(cfg, env, url, bg1);
    assert ShowImage(net, served, url, bg1) == (shown, t1);
    assert [] + t1 == t1;
    if shown.Err? {
      return;
    }
    var st2 := PortalState(st.text, shown.value);
    FinishBehind(cfg, env, served, values.value, st2, pre, t1);
    assert Finish(net, served, values.value, st2, pre + t1) == Finish(cfg, served, values.value, st2, pre + t1);
  }

  /** A missing image key (a string key) is not fatal: the default
      background is shown, nothing is downloaded, and the callback and the
      text slots follow as usual. */
  lemma MissingImageKey(cfg: Config, env: Env, st: PortalState, k: string)
    requires |cfg.imagePath| > 0
    requires env.parse(Body(cfg, env)).Parsed?
    requires Traverse(env.parse(Body(cfg, env)).doc, cfg.imagePath) == Err(KeyError(StrKey(k)))
    requires ExtractValues(cfg, env, Body(cfg, env), Some(env.parse(Body(cfg, env)).doc)).Ok?
    requires Scene.SetBackground(st.bg, cfg.defaultBg).Ok?
    ensures var values := ExtractValues(cfg, env, Body(cfg, env), Some(env.parse(Body(cfg, env)).doc)).value;
      var bg1 := Scene.SetBackground(st.bg, cfg.defaultBg).value;
      Fetch(cfg, env, st) == Finish(cfg, env, values, PortalState(st.text, bg1), NetworkEvents(cfg))
  {
    assert NetworkEvents(cfg) + [] == NetworkEvents(cfg);
  }

  /** An image URL found at `image_json_path` is downloaded through the
      converter service. With an integer content length the cached file
      becomes the background, with an unreadable one the default background
      is shown, and either way the callback and the text slots follow; a
      missing content length ends the call with KeyError. */
  lemma FoundImage(cfg: Config, env: Env, st: PortalState, u: string)
    requires |cfg.imagePath| > 0 && |u| > 0
    requires env.parse(Body(cfg, env)).Parsed?
    requires Traverse(env.parse(Body(cfg, env)).doc, cfg.imagePath) == Ok(JStr(u))
    requires Extracted(cfg, env).Some?
    ensures var t := NetworkEvents(cfg) + [Download(ImageConverterService + u)];
      var h := env.imageHeaders(ImageConverterService + u);
      var values := Extracted(cfg, env).value;
      && (Download.ContentLengthHeader in h ==>
            var shown := if Numerals.ParseInt(h[Download.ContentLengthHeader]).Some? then Some(CacheFile) else cfg.defaultBg;
            match Scene.SetBackground(st.bg, shown)
            case Ok(bg1) => Fetch(cfg, env, st) == Finish(cfg, env, values, PortalState(st.text, bg1), t)
            case Err(e) => Fetch(cfg, env, st) == Raised(e, t))
      && (Download.ContentLengthHeader !in h ==>
            Fetch(cfg, env, st) == Raised(KeyError(StrKey(Download.ContentLengthHeader)), t))
  {
  }

  /** An image lookup that fails other than on a missing string key ends
      `fetch` with its exception before the callback or any slot: an integer
      key in a KeyError makes the report itself raise TypeError, other
      traversal errors propagate, and a truthy URL that is not a string
      cannot be appended to the converter URL. A falsy URL is ignored. */
  lemma ImageLookupFails(cfg: Config, env: Env, st: PortalState)
    requires |cfg.imagePath| > 0 && env.parse(Body(cfg, env)).Parsed?
    requires Extracted(cfg, env).Some?
    ensures var found := Traverse(env.parse(Body(cfg, env)).doc, cfg.imagePath);
      var t := NetworkEvents(cfg);
      && (found.Err? && found.error.KeyError? && found.error.key.IntKey? ==> Fetch(cfg, env, st) == Raised(TypeError, t))
      && (found.Err? && !found.error.KeyError? ==> Fetch(cfg, env, st) == Raised(found.error, t))
      && (found.Ok? && Truthy(found.value) && !found.value.JStr? ==> Fetch(cfg, env, st) == Raised(TypeError, t))
      && (found.Ok? && !Truthy(found.value) ==> Fetch(cfg, env, st) == Finish(cfg, env, Extracted(cfg, env).value, st, t))
  {
    assert NetworkEvents(cfg) + [] == NetworkEvents(cfg);
  }
}

=== FILE: json_path.dfy ===
/** JSON documents and `PyPortal._json_traverse`: a left fold of Python
    subscripts `value[x]` over a path of keys and indices. The
    `gc.collect()` between steps is a memory hint with no effect on the
    result and is not modelled. */
module JsonPath {
  import opened Base

  /** A parsed JSON document. Numbers are integers; floats are not modelled. */
  datatype Json =
    | JNull
    | JBool(b: bool)
    | JNum(n: int)
    | JStr(s: string)
    | JArr(items: seq<Json>)
    | JObj(fields: map<string, Json>)

  /** One step of a path: a dictionary key or a list/string index. */
  datatype Step = Key(k: string) | Idx(i: int)

  type Path = seq<Step>

  /** `v[x]` with Python's rules: a dict lookup of an absent key (an integer
      is never a key of a JSON object) raises KeyError, an index outside
      `-len..len-1` raises IndexError, a string index yields a one-character
      string, and every other combination raises TypeError. */
  function Lookup(v: Json, x: Step): (r: Result<Json>)
    ensures r.Err? && r.error.KeyError? ==> v.JObj?
    ensures v.JObj? && x.Key? ==> (r.Ok? <==> x.k in v.fields)
    ensures v.JArr? && x.Idx? ==> (r.Ok? <==> -|v.items| <= x.i < |v.items|)
    ensures r.Ok? && v.JArr? ==> r.value in v.items
    // which value a successful subscript yields: `m[k]`, `a[i]` or `a[len + i]`,
    // and the one-character string `s[i]` or `s[len + i]`
    ensures v.JObj? && x.Key? && x.k in v.fields ==> r == Ok(v.fields[x.k])
    ensures v.JArr? && x.Idx? && 0 <= x.i < |v.items| ==> r == Ok(v.items[x.i])
    ensures v.JArr? && x.Idx? && -|v.items| <= x.i < 0 ==> r == Ok(v.items[|v.items| + x.i])
    ensures v.JStr? && x.Idx? && 0 <= x.i < |v.s| ==> r == Ok(JStr([v.s[x.i]]))
    ensures v.JStr? && x.Idx? && -|v.s| <= x.i < 0 ==> r == Ok(JStr([v.s[|v.s| + x.i]]))
    // which exception a failing one raises
    ensures v.JObj? && x.Key? && x.k !in v.fields ==> r == Err(KeyError(StrKey(x.k)))
    ensures v.JObj? && x.Idx? ==> r == Err(KeyError(IntKey(x.i)))
    ensures (v.JArr? || v.JStr?) && x.Idx? && !(-(Length(v) as int) <= x.i < Length(v)) ==> r == Err(IndexError)
    ensures (v.JArr? || v.JStr?) && x.Key? ==> r == Err(TypeError)
    ensures !(v.JObj? || v.JArr? || v.JStr?) ==> r == Err(TypeError)
  {
    match v
    case JObj(m) =>
      (match x
       case Key(k) => if k in m then Ok(m[k]) else Err(KeyError(StrKey(k)))
       case Idx(i) => Err(KeyError(IntKey(i))))
    case JArr(a) =>
      (match x
       case Idx(i) =>
         (match PyIndex(i, |a|)
          case Some(j) => Ok(a[j])
          case None => Err(IndexError))
       case Key(_) => Err(TypeError))
    case JStr(s) =>
      (match x
       case Idx(i) =>
         (match PyIndex(i, |s|)
          case Some(j) => Ok(JStr([s[j]]))
          case None => Err(IndexError))
       case Key(_) => Err(TypeError))
    case _ => Err(TypeError)
  }

  /** `len(v)` of a list or a string. */
  function Length(v: Json): nat
    requires v.JArr? || v.JStr?
  {
    if v.JArr? then |v.items| else |v.s|
  }

  /** `_json_traverse(v, path)`: apply the steps left to right, the first
      failing step's exception propagating. */
  function Traverse(v: Json, path: Path): Result<Json>
    decreases |path|
  {
    if |path| == 0 then Ok(v)
    else
      match Lookup(v, path[0])
      case Ok(w) => Traverse(w, path[1..])
      case Err(e) => Err(e)
  }

  /** Continue a traversal result with more steps. */
  function Then(r: Result<Json>, q: Path): Result<Json>
  {
    match r
    case Ok(w) => Traverse(w, q)
    case Err(e) => Err(e)
  }

  /** Traversal is a fold: the empty path returns the document, and
      traversing `p + q` is traversing `q` from where `p` leads. */
  lemma {:induction false} TraverseAppend(v: Json, p: Path, q: Path)
    ensures Traverse(v, []) == Ok(v)
    ensures Traverse(v, p + q) == Then(Traverse(v, p), q)
    decreases |p|
  {
    if |p| > 0 {
      assert (p + q)[0] == p[0];
      assert (p + q)[1..] == p[1..] + q;
      match Lookup(v, p[0])
      case Ok(w) => TraverseAppend(w, p[1..], q);
      case Err(e) =>
    } else {
      assert p + q == q;
    }
  }

  /** The step where a traversal stops: step `k` is reached and its lookup fails. */
  predicate FailsAt(v: Json, path: Path, k: int)
  {
    && 0 <= k < |path|
    && Traverse(v, path[..k]).Ok?
    && Lookup(Traverse(v, path[..k]).value, path[k]).Err?
  }

  /** A traversal fails exactly when some step is reached and its lookup
      fails; the exception is that step's. */
  lemma {:induction false} TraverseFailure(v: Json, path: Path)
    ensures Traverse(v, path).Err? <==> exists k :: FailsAt(v, path, k)
    ensures forall k :: FailsAt(v, path, k) ==>
      Traverse(v, path).error == Lookup(Traverse(v, path[..k]).value, path[k]).error
    decreases |path|
  {
    if |path| > 0 {
      var r := Lookup(v, path[0]);
      assert path[..0] == [];
      assert Traverse(v, path[..0]) == Ok(v);
      if r.Ok? {
        TraverseFailure(r.value, path[1..]);
        forall k | 0 <= k < |path| - 1
          ensures Traverse(v, path[..k + 1]) == Traverse(r.value, path[1..][..k])
          ensures FailsAt(v, path, k + 1) <==> FailsAt(r.value, path[1..], k)
        {
          assert path[..k + 1][0] == path[0];
          assert path[..k + 1][1..] == path[1..][..k];
          assert path[k + 1] == path[1..][k];
        }
        assert !FailsAt(v, path, 0);
        if Traverse(v, path).Err? {
          var k :| FailsAt(r.value, path[1..], k);
          assert FailsAt(v, path, k + 1);
        }
        forall k | FailsAt(v, path, k)
          ensures Traverse(v, path).Err?
        {
          assert k >= 1 && FailsAt(r.value, path[1..], k - 1);
        }
      } else {
        assert FailsAt(v, path, 0);
      }
    }
  }

  /** `n` nulls, padding for `Build`. */
  function Nulls(n: nat): (r: seq<Json>)
    ensures |r| == n
  {
    seq(n, _ => JNull)
  }

  /** The smallest document in which `path` leads to `leaf`: one key per
      object step, the leaf's branch at the addressed position of a list
      padded with nulls (at the front for a negative index). */
  function Build(path: Path, leaf: Json): Json
    decreases |path|
  {
    if |path| == 0 then leaf
    else
      var sub := Build(path[1..], leaf);
      match path[0]
      case Key(k) => JObj(map[k := sub])
      case Idx(i) => if i >= 0 then JArr(Nulls(i) + [sub]) else JArr([sub] + Nulls(-i - 1))
  }

  /** Traversing a document built for a path returns the leaf: the path
      addresses a document at any depth. */
  lemma {:induction false} TraverseBuild(path: Path, leaf: Json)
    ensures Traverse(Build(path, leaf), path) == Ok(leaf)
    decreases |path|
  {
    if |path| > 0 {
      TraverseBuild(path[1..], leaf);
      var sub := Build(path[1..], leaf);
      match path[0]
      case Key(k) =>
      case Idx(i) =>
        if i >= 0 {
          assert (Nulls(i) + [sub])[i] == sub;
        } else {
          assert ([sub] + Nulls(-i - 1))[0] == sub;
        }
    }
  }

  /** The `json_path` argument before normalisation: absent, one flat path,
      or a sequence of paths (the source tells the last two apart by whether
      the first element is itself a list or tuple). */
  datatype JsonPathArg = NoJsonPath | OnePath(path: Path) | ManyPaths(paths: seq<Path>)

  /** The constructor's normalisation of `json_path`: a falsy argument (None
      or empty) means no JSON value extraction; one flat path becomes a
      one-element tuple of paths; a sequence of paths is kept. */
  function NormalizeJsonPath(arg: JsonPathArg): (r: Option<seq<Path>>)
    ensures r.None? <==> (arg.NoJsonPath? || (arg.OnePath? && |arg.path| == 0)
                          || (arg.ManyPaths? && |arg.paths| == 0))
    ensures r.Some? ==> |r.value| >= 1
    ensures r.Some? && arg.OnePath? ==> r.value == [arg.path]
    ensures r.Some? && arg.ManyPaths? ==> r.value == arg.paths
  {
    match arg
    case NoJsonPath => None
    case OnePath(p) => if |p| == 0 then None else Some([p])
    case ManyPaths(ps) => if |ps| == 0 then None else Some(ps)
  }

  /** `[_json_traverse(doc, p) for p in paths]`: one value per path, in order,
      or the exception of the first path that fails. */
  function TraverseAll(doc: Json, paths: seq<Path>): (r: Result<seq<Json>>)
    ensures r.Ok? ==> |r.value| == |paths|
    ensures r.Ok? <==> forall k :: 0 <= k < |paths| ==> Traverse(doc, paths[k]).Ok?
    ensures r.Ok? ==> forall k :: 0 <= k < |paths| ==> r.value[k] == Traverse(doc, paths[k]).value
    ensures r.Err? ==> exists k :: 0 <= k < |paths| && Traverse(doc, paths[k]) == Err(r.error)
                                  && forall j :: 0 <= j < k ==> Traverse(doc, paths[j]).Ok?
  {
    if |paths| == 0 then Ok([])
    else
      match Traverse(doc, paths[0])
      case Err(e) => Err(e)
      case Ok(v) =>
        match TraverseAll(doc, paths[1..])
        case Err(e) =>
          assert forall k :: 1 <= k < |paths| ==> paths[k] == paths[1..][k - 1];
          Err(e)
        case Ok(vs) =>
          assert forall k :: 1 <= k < |paths| ==> paths[k] == paths[1..][k - 1];
          Ok([v] + vs)
  }
}

=== FILE: local_time.dfy ===
/** The parsing half of `PyPortal.get_local_time`: the time-service URL,
    the four fields read from its JSON reply, and the split of the
    `datetime` string on 'T', '-', '.' and ':' into six integers. Connecting,
    the HTTP request and setting the real-time clock are not modelled. */
module LocalTime {
  import opened Base
  import Strs
  import Numerals
  import opened JsonPath

  const TimeServiceIpAddr: string := "http://worldtimeapi.org/api/ip"
  const TimeServiceLocation: string := "http://worldtimeapi.org/api/timezone/"

  /** The endpoint: by IP address when no (or an empty) location is given,
      otherwise the location appended to the timezone endpoint. */
  function TimeServiceUrl(location: Option<string>): (url: string)
    ensures location.None? || location.value == "" ==> url == TimeServiceIpAddr
    ensures location.Some? && location.value != "" ==>
      |url| == |TimeServiceLocation| + |location.value|
      && url[..|TimeServiceLocation|] == TimeServiceLocation
      && url[|TimeServiceLocation|..] == location.value
  {
    if location.None? || location.value == "" then TimeServiceIpAddr
    else TimeServiceLocation + location.value
  }

  /** A falsy location is the same as none. */
  function LocationName(location: Option<string>): string
  {
    if location.None? then "" else location.value
  }

  /** Different locations are asked for at different URLs, and a location
      is never confused with the by-IP endpoint. */
  lemma TimeServiceUrlInjective(a: Option<string>, b: Option<string>)
    ensures TimeServiceUrl(a) == TimeServiceUrl(b) <==> LocationName(a) == LocationName(b)
  {
    var na, nb := LocationName(a), LocationName(b);
    if na != "" && nb != "" && TimeServiceUrl(a) == TimeServiceUrl(b) {
      assert (TimeServiceLocation + na)[|TimeServiceLocation|..] == na;
      assert (TimeServiceLocation + nb)[|TimeServiceLocation|..] == nb;
    }
  }

  datatype DateTime = DateTime(year: int, month: int, mday: int, hours: int, minutes: int, seconds: int)

  /** `[int(x) for x in pieces]`: ValueError at the first piece that is not
      an integer. */
  function ParseInts(pieces: seq<string>): (r: Result<seq<int>>)
    ensures r.Ok? <==> forall k :: 0 <= k < |pieces| ==> Numerals.ParseInt(pieces[k]).Some?
    ensures r.Ok? ==> (|r.value| == |pieces|
      && forall k :: 0 <= k < |pieces| ==> Numerals.ParseInt(pieces[k]) == Some(r.value[k]))
    ensures r.Err? ==> r.error == ValueError
  {
    if |pieces| == 0 then Ok([])
    else
      match Numerals.ParseInt(pieces[0])
      case None => Err(ValueError)
      case Some(n) =>
        match ParseInts(pieces[1..])
        case Err(e) =>
          assert forall k :: 1 <= k < |pieces| ==> pieces[k] == pieces[1..][k - 1];
          Err(e)
        case Ok(ns) =>
          assert forall k :: 1 <= k < |pieces| ==> pieces[k] == pieces[1..][k - 1];
          Ok([n] + ns)
  }

  /** The date pieces and the time pieces of a datetime string, when it has
      exactly one 'T': the part before splits on '-', the part after is cut
      at its first '.' and splits on ':'. */
  function DatePieces(s: string): seq<string>
    requires |Strs.Split(s, 'T')| == 2
  {
    Strs.Split(Strs.Split(s, 'T')[0], '-')
  }

  function TimePieces(s: string): seq<string>
    requires |Strs.Split(s, 'T')| == 2
  {
    Strs.Split(Strs.Split(Strs.Split(s, 'T')[1], '.')[0], ':')
  }

  /** The shape `get_local_time` accepts: two parts around 'T', three date
      pieces, three time pieces before the first '.', all integers. */
  predicate WellShaped(s: string)
  {
    && |Strs.Split(s, 'T')| == 2
    && |DatePieces(s)| == 3
    && |TimePieces(s)| == 3
    && (forall k :: 0 <= k < 3 ==> Numerals.ParseInt(DatePieces(s)[k]).Some?)
    && (forall k :: 0 <= k < 3 ==> Numerals.ParseInt(TimePieces(s)[k]).Some?)
  }

  /** The datetime split of `get_local_time`. Any other shape raises
      ValueError (an unpacking count or an `int()` failure). */
  function ParseDatetime(s: string): (r: Result<DateTime>)
    ensures r.Ok? <==> WellShaped(s)
    ensures r.Err? ==> r.error == ValueError
    ensures r.Ok? ==>
      && Numerals.ParseInt(DatePieces(s)[0]) == Some(r.value.year)
      && Numerals.ParseInt(DatePieces(s)[1]) == Some(r.value.month)
      && Numerals.ParseInt(DatePieces(s)[2]) == Some(r.value.mday)
      && Numerals.ParseInt(TimePieces(s)[0]) == Some(r.value.hours)
      && Numerals.ParseInt(TimePieces(s)[1]) == Some(r.value.minutes)
      && Numerals.ParseInt(TimePieces(s)[2]) == Some(r.value.seconds)
  {
    var halves := Strs.Split(s, 'T');
    if |halves| != 2 then Err(ValueError)
    else
      match ParseInts(DatePieces(s))
      case Err(e) => Err(e)
      case Ok(date) =>
        if |date| != 3 then Err(ValueError)
        else
          match ParseInts(TimePieces(s))
          case Err(e) => Err(e)
          case Ok(time) =>
            if |time| != 3 then Err(ValueError)
            else Ok(DateTime(date[0], date[1], date[2], time[0], time[1], time[2]))
  }

  lemma NotInJoin(ws: seq<string>, sep: char, ch: char)
    requires ch != sep
    requires forall k :: 0 <= k < |ws| ==> ch !in ws[k]
    ensures ch !in Strs.Join(ws, sep)
  {
    if |ws| > 1 {
      NotInJoin(ws[1..], sep, ch);
    }
  }

  lemma DigitsHaveNo(s: string, ch: char)
    requires Numerals.AllDigits(s) && !Numerals.IsDigit(ch)
    ensures ch !in s
  {
  }

  /** Three digit strings joined by a separator split back into them. */
  lemma ThreePieces(a: string, b: string, c: string, sep: char)
    requires Numerals.AllDigits(a) && Numerals.AllDigits(b) && Numerals.AllDigits(c)
    requires !Numerals.IsDigit(sep)
    ensures Strs.Split(Strs.Join([a, b, c], sep), sep) == [a, b, c]
  {
    DigitsHaveNo(a, sep);
    DigitsHaveNo(b, sep);
    DigitsHaveNo(c, sep);
    Strs.SplitJoin([a, b, c], sep);
  }

  lemma JoinedDigitsHaveNo(a: string, b: string, c: string, sep: char, ch: char)
    requires Numerals.AllDigits(a) && Numerals.AllDigits(b) && Numerals.AllDigits(c)
    requires !Numerals.IsDigit(ch) && ch != sep
    ensures ch !in Strs.Join([a, b, c], sep)
  {
    DigitsHaveNo(a, ch);
    DigitsHaveNo(b, ch);
    DigitsHaveNo(c, ch);
    NotInJoin([a, b, c], sep, ch);
  }

  /** `date + "T" + time + "." + rest` cut into its parts. */
  lemma StampPieces(date: string, time: string, rest: string)
    requires 'T' !in date && 'T' !in time && 'T' !in rest && '.' !in time
    ensures var s := date + "T" + time + "." + rest;
      && Strs.Split(s, 'T') == [date, time + "." + rest]
      && Strs.Split(Strs.Split(s, 'T')[1], '.')[0] == time
  {
    var after := time + "." + rest;
    assert 'T' !in after;
    assert date + "T" + after == Strs.Join([date, after], 'T') by {
      assert [date, after][1..] == [after];
    }
    assert date + "T" + time + "." + rest == date + "T" + after;
    Strs.SplitJoin([date, after], 'T');
    Strs.SplitAppend(time, rest, '.');
    assert time + [ '.' ] + rest == after;
    Strs.SplitNoSep(time, '.');
  }

  lemma ThreeJoin(a: string, b: string, c: string, sep: char)
    ensures Strs.Join([a, b, c], sep) == a + [sep] + b + [sep] + c
  {
    assert [a, b, c][1..] == [b, c];
    assert [b, c][1..] == [c];
    assert Strs.Join([b, c], sep) == b + [sep] + c;
  }

  /** Six integer pieces in place parse to their values. */
  lemma ParsePieces(s: string, y: string, mo: string, d: string, h: string, mi: string, sec: string,
                    vy: int, vmo: int, vd: int, vh: int, vmi: int, vsec: int)
    requires Numerals.ParseInt(y) == Some(vy) && Numerals.ParseInt(mo) == Some(vmo)
    requires Numerals.ParseInt(d) == Some(vd) && Numerals.ParseInt(h) == Some(vh)
    requires Numerals.ParseInt(mi) == Some(vmi) && Numerals.ParseInt(sec) == Some(vsec)
    requires |Strs.Split(s, 'T')| == 2
    requires DatePieces(s) == [y, mo, d] && TimePieces(s) == [h, mi, sec]
    ensures ParseDatetime(s) == Ok(DateTime(vy, vmo, vd, vh, vmi, vsec))
  {
    ParseThreeInts(y, mo, d, vy, vmo, vd);
    ParseThreeInts(h, mi, sec, vh, vmi, vsec);
    AssembleDateTime(s, [y, mo, d], [h, mi, sec], [vy, vmo, vd], [vh, vmi, vsec]);
  }

  /** Three date numbers and three time numbers make the datetime. */
  lemma AssembleDateTime(s: string, ds: seq<string>, ts: seq<string>, date: seq<int>, time: seq<int>)
    requires |Strs.Split(s, 'T')| == 2
    requires |date| == 3 && |time| == 3
    requires DatePieces(s) == ds && TimePieces(s) == ts
    requires ParseInts(ds) == Ok(date) && ParseInts(ts) == Ok(time)
    ensures ParseDatetime(s) == Ok(DateTime(date[0], date[1], date[2], time[0], time[1], time[2]))
  {
  }

  lemma ParseThreeInts(a: string, b: string, c: string, va: int, vb: int, vc: int)
    requires Numerals.ParseInt(a) == Some(va) && Numerals.ParseInt(b) == Some(vb)
    requires Numerals.ParseInt(c) == Some(vc)
    ensures ParseInts([a, b, c]) == Ok([va, vb, vc])
  {
    var ps := [a, b, c];
    assert ps[0] == a && ps[1] == b && ps[2] == c;
    var r := ParseInts(ps);
    assert r.Ok?;
    assert r.value == [r.value[0], r.value[1], r.value[2]];
  }

  /** The datetime text as the time service writes it, from its parts. */
  function Stamp(y: string, mo: string, d: string, h: string, mi: string, sec: string, rest: string): string
  {
    y + "-" + mo + "-" + d + "T" + h + ":" + mi + ":" + sec + "." + rest
  }

  lemma StampShape(y: string, mo: string, d: string, h: string, mi: string, sec: string, rest: string)
    ensures Stamp(y, mo, d, h, mi, sec, rest)
         == Strs.Join([y, mo, d], '-') + "T" + Strs.Join([h, mi, sec], ':') + "." + rest
  {
    ThreeJoin(y, mo, d, '-');
    ThreeJoin(h, mi, sec, ':');
  }

  /** A datetime `Y-M-DTh:m:s.rest` built from digit strings (any number of
      digits, leading zeros allowed) parses to those six numbers, whatever
      follows the first '.' (as long as it holds no further 'T'). */
  lemma ParseDatetimeRoundTrip(y: string, mo: string, d: string, h: string, mi: string, sec: string, rest: string)
    requires |y| >= 1 && |mo| >= 1 && |d| >= 1 && |h| >= 1 && |mi| >= 1 && |sec| >= 1
    requires Numerals.AllDigits(y) && Numerals.AllDigits(mo) && Numerals.AllDigits(d)
    requires Numerals.AllDigits(h) && Numerals.AllDigits(mi) && Numerals.AllDigits(sec)
    requires 'T' !in rest
    ensures ParseDatetime(Stamp(y, mo, d, h, mi, sec, rest))
         == Ok(DateTime(Numerals.DigitsValue(y), Numerals.DigitsValue(mo), Numerals.DigitsValue(d),
                        Numerals.DigitsValue(h), Numerals.DigitsValue(mi), Numerals.DigitsValue(sec)))
  {
    var date := Strs.Join([y, mo, d], '-');
    var time := Strs.Join([h, mi, sec], ':');
    var s := Stamp(y, mo, d, h, mi, sec, rest);
    StampShape(y, mo, d, h, mi, sec, rest);
    JoinedDigitsHaveNo(y, mo, d, '-', 'T');
    JoinedDigitsHaveNo(h, mi, sec, ':', 'T');
    JoinedDigitsHaveNo(h, mi, sec, ':', '.');
    StampPieces(date, time, rest);
    ThreePieces(y, mo, d, '-');
    ThreePieces(h, mi, sec, ':');
    Numerals.ParseIntDigits(y);
    Numerals.ParseIntDigits(mo);
    Numerals.ParseIntDigits(d);
    Numerals.ParseIntDigits(h);
    Numerals.ParseIntDigits(mi);
    Numerals.ParseIntDigits(sec);
    ParsePieces(s, y, mo, d, h, mi, sec,
                Numerals.DigitsValue(y), Numerals.DigitsValue(mo), Numerals.DigitsValue(d),
                Numerals.DigitsValue(h), Numerals.DigitsValue(mi), Numerals.DigitsValue(sec));
  }

  /** The value handed to the real-time clock: the six parsed numbers and
      the reply's `day_of_week`, `day_of_year` and `dst` as given. */
  datatype TimeStruct = TimeStruct(dt: DateTime, weekDay: Json, yearDay: Json, isDst: Json)

  /** `get_local_time`'s handling of the reply: read `datetime`,
      `day_of_year`, `day_of_week` and `dst` (a missing one raises
      KeyError), then split the datetime string (a non-string has no
      `split`: AttributeError). */
  function ParseTimeReply(reply: Json): (r: Result<TimeStruct>)
    ensures r.Ok? ==> (reply.JObj? && "datetime" in reply.fields && "day_of_year" in reply.fields
                       && "day_of_week" in reply.fields && "dst" in reply.fields)
    ensures r.Ok? ==> (reply.fields["datetime"].JStr?
                       && ParseDatetime(reply.fields["datetime"].s) == Ok(r.value.dt)
                       && r.value.weekDay == reply.fields["day_of_week"]
                       && r.value.yearDay == reply.fields["day_of_year"]
                       && r.value.isDst == reply.fields["dst"])
    // a reply with the four fields and a well-formed datetime string is read
    ensures (reply.JObj? && "datetime" in reply.fields && "day_of_year" in reply.fields
             && "day_of_week" in reply.fields && "dst" in reply.fields) ==>
      var f := reply.fields;
      && (f["datetime"].JStr? && ParseDatetime(f["datetime"].s).Ok? ==>
            r == Ok(TimeStruct(ParseDatetime(f["datetime"].s).value, f["day_of_week"], f["day_of_year"], f["dst"])))
      && (f["datetime"].JStr? && ParseDatetime(f["datetime"].s).Err? ==> r == Err(ValueError))
      && (!f["datetime"].JStr? ==> r == Err(AttributeError))
    // the fields are read in the order datetime, day_of_year, day_of_week, dst
    ensures !reply.JObj? ==> r == Err(TypeError)
    ensures reply.JObj? && "datetime" !in reply.fields ==> r == Err(KeyError(StrKey("datetime")))
    ensures reply.JObj? && "datetime" in reply.fields && "day_of_year" !in reply.fields ==>
      r == Err(KeyError(StrKey("day_of_year")))
    ensures (reply.JObj? && "datetime" in reply.fields && "day_of_year" in reply.fields
             && "day_of_week" !in reply.fields) ==> r == Err(KeyError(StrKey("day_of_week")))
    ensures (reply.JObj? && "datetime" in reply.fields && "day_of_year" in reply.fields
             && "day_of_week" in reply.fields && "dst" !in reply.fields) ==> r == Err(KeyError(StrKey("dst")))
  {
    var current :- Lookup(reply, Key("datetime"));
    var yearDay :- Lookup(reply, Key("day_of_year"));
    var weekDay :- Lookup(reply, Key("day_of_week"));
    var isDst :- Lookup(reply, Key("dst"));
    if !current.JStr? then Err(AttributeError)
    else
      var dt :- ParseDatetime(current.s);
      Ok(TimeStruct(dt, weekDay, yearDay, isDst))
  }
}

=== FILE: numerals.dfy ===
/** Decimal integers as text: a simplified `int(str)` parser and the
    thousands-separated rendering `"{:,d}".format(n)` used for text slots. */
module Numerals {
  import opened Base
  import Strs

  predicate IsDigit(ch: char) { '0' <= ch <= '9' }

  predicate AllDigits(s: string) { forall k :: 0 <= k < |s| ==> IsDigit(s[k]) }

  function DigitValue(ch: char): nat
    requires IsDigit(ch)
  {
    ch as int - '0' as int
  }

  function DigitChar(d: nat): (ch: char)
    requires d < 10
    ensures IsDigit(ch) && DigitValue(ch) == d
  {
    ('0' as int + d) as char
  }

  /** Value of a digit string read in base ten; leading zeros are allowed. */
  function DigitsValue(s: string): nat
    requires AllDigits(s)
  {
    if |s| == 0 then 0 else DigitsValue(s[..|s| - 1]) * 10 + DigitValue(s[|s| - 1])
  }

  /** The shortest decimal digits of `n`: no leading zero, "0" for zero. */
  function Digits(n: nat): (r: string)
    ensures |r| >= 1 && AllDigits(r)
    ensures DigitsValue(r) == n
    ensures |r| > 1 ==> r[0] != '0'
  {
    if n < 10 then [DigitChar(n)]
    else
      var r := Digits(n / 10) + [DigitChar(n % 10)];
      assert r[..|r| - 1] == Digits(n / 10);
      r
  }

  /** Python's `str(n)` for an integer. */
  function DecimalString(n: int): string
  {
    (if n < 0 then "-" else "") + Digits(if n < 0 then -n else n)
  }

  /** `int(s)`, simplified: an optional sign followed by one or more ASCII
      digits. Surrounding whitespace, underscores and other bases are not
      accepted. */
  function ParseInt(s: string): (r: Option<int>)
    ensures r.Some? ==> |s| >= 1
    ensures r.Some? && r.value < 0 ==> s[0] == '-'
  {
    if |s| >= 1 && (s[0] == '-' || s[0] == '+') then
      var d := s[1..];
      var v: int := if |d| >= 1 && AllDigits(d) then DigitsValue(d) else 0;
      if |d| >= 1 && AllDigits(d) then Some(if s[0] == '-' then -v else v)
      else None
    else if |s| >= 1 && AllDigits(s) then Some(DigitsValue(s))
    else None
  }

  /** A non-empty digit string parses to its base-ten value. */
  lemma ParseIntDigits(d: string)
    requires |d| >= 1 && AllDigits(d)
    ensures ParseInt(d) == Some(DigitsValue(d))
  {
    assert IsDigit(d[0]);
  }

  /** `int(str(n)) == n`: the parser inverts the decimal rendering. */
  lemma ParseIntDecimal(n: int)
    ensures ParseInt(DecimalString(n)) == Some(n)
  {
    var m := if n < 0 then -n else n;
    var d := Digits(m);
    if n < 0 {
      assert DecimalString(n)[1..] == d;
    } else {
      assert DecimalString(n) == d;
      ParseIntDigits(d);
    }
  }

  /** A string holding no digit at all does not parse. */
  lemma ParseIntRejects(s: string)
    requires forall k :: 0 <= k < |s| ==> !IsDigit(s[k])
    ensures ParseInt(s) == None
  {
    if |s| >= 2 && (s[0] == '-' || s[0] == '+') {
      assert !IsDigit(s[1..][0]);
    } else if |s| >= 1 {
      assert !IsDigit(s[0]);
    }
  }

  /** `s` with every ',' removed. */
  function RemoveCommas(s: string): (r: string)
    ensures |r| <= |s|
  {
    if |s| == 0 then ""
    else RemoveCommas(s[..|s| - 1]) + (if s[|s| - 1] == ',' then "" else [s[|s| - 1]])
  }

  lemma {:induction false} RemoveCommasAppend(a: string, b: string)
    ensures RemoveCommas(a + b) == RemoveCommas(a) + RemoveCommas(b)
    decreases |b|
  {
    if |b| > 0 {
      assert (a + b)[..|a + b| - 1] == a + b[..|b| - 1];
      RemoveCommasAppend(a, b[..|b| - 1]);
    } else {
      assert a + b == a;
    }
  }

  lemma {:induction false} RemoveCommasDigits(d: string)
    requires AllDigits(d)
    ensures RemoveCommas(d) == d
  {
    if |d| > 0 {
      RemoveCommasDigits(d[..|d| - 1]);
      assert d[..|d| - 1] + [d[|d| - 1]] == d;
    }
  }

  /** Inserts ',' between every group of three digits counted from the right. */
  function GroupThousands(d: string): string
  {
    if |d| <= 3 then d else GroupThousands(d[..|d| - 3]) + "," + d[|d| - 3..]
  }

  /** The comma groups of a grouped numeral: the first has one to three
      digits, every later one exactly three. */
  predicate WellGrouped(groups: seq<string>)
  {
    && |groups| >= 1
    && 1 <= |groups[0]| <= 3
    && (forall k :: 1 <= k < |groups| ==> |groups[k]| == 3)
    && (forall k :: 0 <= k < |groups| ==> AllDigits(groups[k]))
  }

  lemma NoCommaInDigits(s: string)
    requires AllDigits(s)
    ensures ',' !in s
  {
    forall k | 0 <= k < |s| ensures s[k] != ',' {
      assert IsDigit(s[k]);
    }
  }

  lemma WellGroupedSnoc(groups: seq<string>, lo: string)
    requires WellGrouped(groups)
    requires |lo| == 3 && AllDigits(lo)
    ensures WellGrouped(groups + [lo])
  {
  }

  /** Grouping keeps the digits and produces well-formed groups. */
  lemma {:induction false} GroupThousandsSound(d: string)
    requires |d| >= 1 && AllDigits(d)
    ensures RemoveCommas(GroupThousands(d)) == d
    ensures WellGrouped(Strs.Split(GroupThousands(d), ','))
    decreases |d|
  {
    if |d| <= 3 {
      RemoveCommasDigits(d);
      NoCommaInDigits(d);
      Strs.SplitNoSep(d, ',');
    } else {
      var hi, lo := d[..|d| - 3], d[|d| - 3..];
      assert AllDigits(hi);
      assert AllDigits(lo);
      GroupThousandsSound(hi);
      var g := GroupThousands(hi);
      assert GroupThousands(d) == g + [','] + lo;
      RemoveCommasCombine(g, lo);
      RemoveCommasDigits(lo);
      assert hi + lo == d;
      NoCommaInDigits(lo);
      Strs.SplitAppend(g, lo, ',');
      Strs.SplitNoSep(lo, ',');
      WellGroupedSnoc(Strs.Split(g, ','), lo);
    }
  }

  lemma RemoveCommasCombine(g: string, lo: string)
    ensures RemoveCommas(g + [','] + lo) == RemoveCommas(g) + RemoveCommas(lo)
  {
    RemoveCommasAppend(g + [','], lo);
    RemoveCommasAppend(g, [',']);
  }

  /** A grouped numeral starts with a digit. */
  lemma {:induction false} GroupedHeadIsDigit(d: string)
    requires |d| >= 1 && AllDigits(d)
    ensures |GroupThousands(d)| >= 1 && IsDigit(GroupThousands(d)[0])
    decreases |d|
  {
    if |d| > 3 {
      GroupedHeadIsDigit(d[..|d| - 3]);
    }
  }

  lemma NegativeRemoveCommas(n: int, body: string)
    requires n < 0 && RemoveCommas(body) == Digits(-n)
    ensures RemoveCommas("-" + body) == DecimalString(n)
  {
    RemoveCommasAppend("-", body);
    assert RemoveCommas("-") == "-" by {
      assert "-"[..0] == "";
    }
  }

  /** `"{:,d}".format(n)`: the sign, then the decimal digits of |n| grouped
      by threes. Deleting the commas gives `str(n)`, and the digits fall into
      groups of one to three then exactly three. */
  function FormatThousands(n: int): (r: string)
    ensures RemoveCommas(r) == DecimalString(n)
    ensures n < 0 <==> (|r| >= 1 && r[0] == '-')
    ensures WellGrouped(Strs.Split(if n < 0 then r[1..] else r, ','))
  {
    var m := if n < 0 then -n else n;
    var body := GroupThousands(Digits(m));
    GroupThousandsSound(Digits(m));
    GroupedHeadIsDigit(Digits(m));
    if n < 0 then
      NegativeRemoveCommas(n, body);
      assert ("-" + body)[1..] == body;
      "-" + body
    else
      assert DecimalString(n) == Digits(m);
      body
  }

  /** Reading the rendering back: commas removed, it parses to `n`. */
  lemma FormatThousandsRoundTrip(n: int)
    ensures ParseInt(RemoveCommas(FormatThousands(n))) == Some(n)
  {
    ParseIntDecimal(n);
  }
}

=== FILE: qr.dfy ===
/** The arithmetic of `PyPortal.show_QR`: the size check, the block size and
    centring offsets, and the rasterisation of one matrix row into a
    monochrome scanline of eight pixels per byte, most significant bit
    first. The QR matrix itself is abstract: a row is the sequence of its
    modules, dark or light. Python's `//` and `%` with the positive divisors
    used here agree with Dafny's. */
module QrRaster {
  import opened Base

  /** The numbers `show_QR` derives from the bitmap size and the matrix
      dimensions. */
  datatype Layout = Layout(blockSize: int, xOffset: int, yOffset: int, lineBytes: int)

  /** The size check and the derived layout: RuntimeError unless the size is
      a multiple of 32. The block is the largest that fits the matrix plus a
      two-block border on each side, the code is centred (rounding down), and
      a scanline holds the whole width at eight pixels per byte. */
  function QrLayout(qrSize: int, width: nat, height: nat): (r: Result<Layout>)
    ensures r.Err? <==> qrSize % 32 != 0
    ensures r.Err? ==> r.error == RuntimeError
    ensures r.Ok? ==>
      (var l := r.value;
       && l.blockSize * (width + 4) <= qrSize < (l.blockSize + 1) * (width + 4)
       && 2 * l.xOffset <= qrSize - l.blockSize * width < 2 * l.xOffset + 2
       && 2 * l.yOffset <= qrSize - l.blockSize * height < 2 * l.yOffset + 2
       && l.lineBytes * 8 == qrSize)
  {
    if qrSize % 32 != 0 then Err(RuntimeError)
    else
      var block := qrSize / (width + 4);
      DivBounds(qrSize, width + 4);
      DivBounds(qrSize - block * width, 2);
      DivBounds(qrSize - block * height, 2);
      EighthOfMultiple(qrSize);
      Ok(Layout(block, (qrSize - block * width) / 2, (qrSize - block * height) / 2, qrSize / 8))
  }

  /** Floor division brackets its dividend between two multiples. */
  lemma DivBounds(q: int, b: int)
    requires b > 0
    ensures (q / b) * b <= q < (q / b + 1) * b
  {
    assert q == (q / b) * b + q % b;
    assert (q / b + 1) * b == (q / b) * b + b;
  }

  /** A multiple of 32 is a whole number of bytes. */
  lemma EighthOfMultiple(q: int)
    requires q % 32 == 0
    ensures (q / 8) * 8 == q
  {
    var m := q / 32;
    assert q == 32 * m;
    assert q == (4 * m) * 8;
  }

  /** The bit of a scanline that holds pixel `px`. */
  function Mask(px: nat): bv8
  {
    (1 as bv8) << (7 - px % 8)
  }

  /** Whether pixel `px` of a scanline is set. */
  predicate IsSet(line: seq<bv8>, px: nat)
    requires px / 8 < |line|
  {
    line[px / 8] & Mask(px) != 0
  }

  /** `line[px // 8] |= 1 << (7 - (px % 8))`. */
  function SetPixel(line: seq<bv8>, px: nat): (r: seq<bv8>)
    requires px / 8 < |line|
    ensures |r| == |line|
  {
    line[px / 8 := line[px / 8] | Mask(px)]
  }

  /** Different bit positions have disjoint masks. */
  lemma MaskBits(x: bv8, a: nat, b: nat)
    requires a < 8 && b < 8
    ensures (x | ((1 as bv8) << (7 - a))) & ((1 as bv8) << (7 - b)) != 0
            <==> a == b || x & ((1 as bv8) << (7 - b)) != 0
  {
  }

  /** Setting a pixel sets exactly that pixel. */
  lemma SetPixelSpec(line: seq<bv8>, p: nat, q: nat)
    requires p / 8 < |line| && q / 8 < |line|
    ensures IsSet(SetPixel(line, p), q) <==> q == p || IsSet(line, q)
  {
    var i, j := p / 8, q / 8;
    var after := SetPixel(line, p);
    if i == j {
      assert after[j] == line[j] | Mask(p);
      MaskBits(line[j], p % 8, q % 8);
      assert p % 8 == q % 8 ==> p == q by {
        assert p == 8 * i + p % 8 && q == 8 * j + q % 8;
      }
    } else {
      assert after[j] == line[j];
    }
  }

  /** Multiplying by a non-negative number keeps the order. */
  lemma {:induction false} MulMono(a: int, c: int, k: nat)
    requires a <= c
    ensures a * k <= c * k
  {
    if k > 0 {
      MulMono(a, c, k - 1);
      assert a * k == a * (k - 1) + a;
      assert c * k == c * (k - 1) + c;
    }
  }

  /** A point inside block `x` of width `b` lies in column `x`. */
  lemma DivInBlock(q: int, x: int, b: nat)
    requires b > 0 && x * b <= q < x * b + b
    ensures q / b == x
  {
    var d := q / b;
    assert q == d * b + q % b;
    if d < x {
      assert (d + 1) * b == d * b + b;
      MulMono(d + 1, x, b);
    } else if d > x {
      assert (x + 1) * b == x * b + b;
      MulMono(x + 1, d, b);
    }
  }

  /** The pixels the first `cols` columns of a row draw: those inside the
      code's horizontal span whose module is dark. */
  predicate Drawn(l: Layout, row: seq<bool>, cols: nat, p: int)
  {
    && l.blockSize > 0
    && l.xOffset <= p < l.xOffset + cols * l.blockSize
    && (var x := (p - l.xOffset) / l.blockSize; x < |row| && row[x])
  }

  lemma DrawnGrow(l: Layout, row: seq<bool>, x: nat, p: int)
    requires l.blockSize > 0 && x < |row|
    ensures Drawn(l, row, x + 1, p)
            <==> Drawn(l, row, x, p)
                 || (row[x] && l.xOffset + x * l.blockSize <= p < l.xOffset + x * l.blockSize + l.blockSize)
  {
    var b := l.blockSize;
    assert (x + 1) * b == x * b + b;
    if l.xOffset + x * b <= p < l.xOffset + x * b + b {
      DivInBlock(p - l.xOffset, x, b);
    }
  }

  /** The layout's block size is non-negative and the code with its
      border fits the bitmap. */
  lemma LayoutFits(qrSize: int, width: nat, height: nat)
    requires qrSize >= 0 && QrLayout(qrSize, width, height).Ok?
    ensures var l := QrLayout(qrSize, width, height).value;
      l.blockSize >= 0 && l.blockSize * width <= qrSize && l.xOffset >= 0
      && l.xOffset + l.blockSize * width <= qrSize
  {
    var l := QrLayout(qrSize, width, height).value;
    var k := l.blockSize;
    assert k >= 0 by {
      if k < 0 {
        MulMono(k + 1, 0, width + 4);
      }
    }
    MulMono(width, width + 4, k);
    assert width * k == k * width && (width + 4) * k == k * (width + 4);
  }

  /** Every pixel the loops touch lies inside the scanline. */
  lemma ColumnInRange(qrSize: int, width: nat, height: nat, x: nat, b: nat)
    requires qrSize >= 0 && QrLayout(qrSize, width, height).Ok?
    requires x < width && b < QrLayout(qrSize, width, height).value.blockSize
    ensures var l := QrLayout(qrSize, width, height).value;
      var px := l.xOffset + x * l.blockSize + b;
      0 <= px < qrSize && px / 8 < l.lineBytes
  {
    LayoutFits(qrSize, width, height);
    PixelInLine(QrLayout(qrSize, width, height).value, width, qrSize, x, b);
  }

  /** The same for any layout whose code fits the bitmap. */
  lemma PixelInLine(l: Layout, width: nat, qrSize: int, x: nat, b: nat)
    requires l.blockSize >= 0 && l.xOffset >= 0 && l.xOffset + l.blockSize * width <= qrSize
    requires l.lineBytes * 8 == qrSize
    requires x < width && b < l.blockSize
    ensures var px := l.xOffset + x * l.blockSize + b;
      0 <= px < qrSize && px / 8 < l.lineBytes
  {
    var k := l.blockSize;
    MulMono(x + 1, width, k);
    assert (x + 1) * k == x * k + k;
    assert width * k == k * width;
    assert 0 <= x * k;
  }

  /** The first `b` pixels of block `x`. */
  predicate InBlock(l: Layout, x: nat, b: int, p: int)
  {
    l.xOffset + x * l.blockSize <= p < l.xOffset + x * l.blockSize + b
  }

  /** A scanline of `qrSize / 8` bytes whose set pixels are exactly those
      the first `x` columns draw plus the first `b` pixels of block `x`. */
  predicate LineHolds(qrSize: int, l: Layout, row: seq<bool>, x: nat, b: int, line: seq<bv8>)
  {
    && |line| * 8 == qrSize
    && forall p: nat :: p < qrSize ==> (IsSet(line, p) <==> Drawn(l, row, x, p) || InBlock(l, x, b, p))
  }

  lemma ZeroLine(qrSize: int, l: Layout, row: seq<bool>, n: nat)
    requires l.blockSize >= 0 && n * 8 == qrSize
    ensures LineHolds(qrSize, l, row, 0, 0, seq(n, _ => 0 as bv8))
  {
  }

  /** One pass of the inner loop: set the next pixel of block `x`. */
  lemma SetNext(qrSize: int, height: nat, row: seq<bool>, x: nat, b: nat, line: seq<bv8>)
    requires qrSize >= 0 && QrLayout(qrSize, |row|, height).Ok?
    requires x < |row| && b < QrLayout(qrSize, |row|, height).value.blockSize
    requires LineHolds(qrSize, QrLayout(qrSize, |row|, height).value, row, x, b, line)
    ensures var l := QrLayout(qrSize, |row|, height).value;
      var px := l.xOffset + x * l.blockSize + b;
      && 0 <= px < qrSize && px / 8 < |line|
      && LineHolds(qrSize, l, row, x, b + 1, SetPixel(line, px))
  {
    var l := QrLayout(qrSize, |row|, height).value;
    ColumnInRange(qrSize, |row|, height, x, b);
    var px := l.xOffset + x * l.blockSize + b;
    forall p: nat | p < qrSize
      ensures IsSet(SetPixel(line, px), p) <==> Drawn(l, row, x, p) || InBlock(l, x, b + 1, p)
    {
      SetPixelSpec(line, px, p);
    }
  }

  /** The end of one pass of the outer loop: column `x` is drawn. */
  lemma NextColumn(qrSize: int, l: Layout, row: seq<bool>, x: nat, line: seq<bv8>)
    requires l.blockSize >= 0 && x < |row|
    requires LineHolds(qrSize, l, row, x, if row[x] then l.blockSize else 0, line)
    ensures LineHolds(qrSize, l, row, x + 1, 0, line)
  {
    forall p: nat | p < qrSize
      ensures IsSet(line, p) <==> Drawn(l, row, x + 1, p)
    {
      if l.blockSize > 0 {
        DrawnGrow(l, row, x, p);
      }
    }
  }

  /** Rasterising one matrix row: a zeroed scanline of `qrSize / 8` bytes in
      which, for every dark module, the pixels of its block are set. Exactly
      the pixels inside the code's span whose module is dark end up set. */
  method RasterLine(qrSize: int, height: nat, row: seq<bool>) returns (r: Result<seq<bv8>>)
    requires qrSize >= 0
    ensures r.Err? <==> qrSize % 32 != 0
    ensures r.Ok? ==>
      (var l := QrLayout(qrSize, |row|, height).value;
       && |r.value| == qrSize / 8
       && forall p: nat :: p < qrSize ==> p / 8 < |r.value| && (IsSet(r.value, p) <==> Drawn(l, row, |row|, p)))
  {
    var lay := QrLayout(qrSize, |row|, height);
    if lay.Err? {
      return Err(lay.error);
    }
    LayoutFits(qrSize, |row|, height);
    var l := lay.value;
    var line: seq<bv8> := seq(l.lineBytes, _ => 0);
    ZeroLine(qrSize, l, row, l.lineBytes);
    for x := 0 to |row|
      invariant LineHolds(qrSize, l, row, x, 0, line)
    {
      if row[x] {
        line := DrawBlock(qrSize, height, row, x, line);
      }
      NextColumn(qrSize, l, row, x, line);
    }
    LineDone(qrSize, l, row, line);
    r := Ok(line);
  }

  /** The inner loop for a dark module: set every pixel of its block. */
  method DrawBlock(qrSize: int, height: nat, row: seq<bool>, x: nat, line: seq<bv8>) returns (r: seq<bv8>)
    requires qrSize >= 0 && QrLayout(qrSize, |row|, height).Ok? && x < |row|
    requires LineHolds(qrSize, QrLayout(qrSize, |row|, height).value, row, x, 0, line)
    ensures var l := QrLayout(qrSize, |row|, height).value;
      LineHolds(qrSize, l, row, x, l.blockSize, r)
  {
    var l := QrLayout(qrSize, |row|, height).value;
    LayoutFits(qrSize, |row|, height);
    r := line;
    for b := 0 to l.blockSize
      invariant LineHolds(qrSize, l, row, x, b, r)
    {
      SetNext(qrSize, height, row, x, b, r);
      r := SetPixel(r, l.xOffset + x * l.blockSize + b);
    }
  }

  /** After the last column, the set pixels are exactly the drawn ones, and
      every pixel of the code's span has its byte in the scanline. */
  lemma LineDone(qrSize: int, l: Layout, row: seq<bool>, line: seq<bv8>)
    requires LineHolds(qrSize, l, row, |row|, 0, line)
    ensures |line| == qrSize / 8
    ensures forall p: nat :: p < qrSize ==> p / 8 < |line| && (IsSet(line, p) <==> Drawn(l, row, |row|, p))
  {
  }

  /** The bitmap row that copy `b` of matrix row `y` is loaded into. */
  function RowIndex(l: Layout, y: nat, b: nat): int
  {
    l.yOffset + y * l.blockSize + b
  }

  /** For a square matrix, every scanline is loaded into a row of the
      bitmap, and different (matrix row, copy) pairs land on different rows,
      so no scanline overwrites another. */
  lemma RowsInRange(qrSize: int, width: nat, y: nat, b: nat, y2: nat, b2: nat)
    requires qrSize >= 0 && QrLayout(qrSize, width, width).Ok?
    requires y < width && b < QrLayout(qrSize, width, width).value.blockSize
    requires y2 < width && b2 < QrLayout(qrSize, width, width).value.blockSize
    ensures var l := QrLayout(qrSize, width, width).value;
      0 <= RowIndex(l, y, b) < qrSize
    ensures var l := QrLayout(qrSize, width, width).value;
      RowIndex(l, y, b) == RowIndex(l, y2, b2) ==> y == y2 && b == b2
  {
    var l := QrLayout(qrSize, width, width).value;
    var k := l.blockSize;
    ColumnInRange(qrSize, width, width, y, b);
    assert l.yOffset == l.xOffset;
    if RowIndex(l, y, b) == RowIndex(l, y2, b2) {
      DivInBlock(y * k + b, y, k);
      DivInBlock(y2 * k + b2, y2, k);
    }
  }
}

=== FILE: scene.dfy ===
/** The display side of the pipeline: the `splash` group that holds the
    text areas, `PyPortal.set_text` updating one text slot in it, the
    one-sprite background group driven by `PyPortal.set_background`, and
    the constructor's normalisation of the text-slot configuration.
    Display objects are opaque; they are told apart by identity, modelled by
    a unique number per element. */
module Scene {
  import opened Base

  datatype Pos = Pos(x: int, y: int)

  /** A drawable in `splash`: a text area, or any other group or sprite
      (background group, caption, QR group). */
  datatype Elem =
    | TextArea(id: nat, text: string, color: int, pos: Pos)
    | Other(id: nat)

  /** The configuration of one text slot: `_text_position[i]` (None when it
      is falsy), `_text_color[i]`, `_text_wrap[i]`, `_text_maxlen[i]`. */
  datatype Slot = Slot(position: Option<Pos>, color: int, wrap: int, maxlen: int)

  /** The state `set_text` reads and writes: whether a text font is loaded,
      the slot configuration, `_text` (the area shown for each slot, if
      any), the elements of `splash` bottom to top, and the next unused
      element identity. */
  datatype TextState = TextState(
    hasFont: bool,
    slots: seq<Slot>,
    areas: seq<Option<Elem>>,
    splash: seq<Elem>,
    nextId: nat)

  /** `displayio.Group(max_size=5)` for `splash`. */
  const SplashCapacity: nat := 5

  function Reverse<T>(s: seq<T>): (r: seq<T>)
    ensures |r| == |s|
    ensures forall k :: 0 <= k < |s| ==> r[k] == s[|s| - 1 - k]
  {
    if |s| == 0 then [] else [s[|s| - 1]] + Reverse(s[..|s| - 1])
  }

  /** The loop `while len(splash): item = splash.pop(); if item == target:
      break; items.append(item)`: what is left below, and the popped items
      other than the target, in pop order (topmost first). */
  function PopUntil(s: seq<Elem>, target: Elem): (r: (seq<Elem>, seq<Elem>))
  {
    if |s| == 0 then ([], [])
    else if s[|s| - 1] == target then (s[..|s| - 1], [])
    else
      var (below, popped) := PopUntil(s[..|s| - 1], target);
      (below, [s[|s| - 1]] + popped)
  }

  /** The loop removes the target once if it is there, and keeps or
      collects everything else. */
  lemma {:induction false} PopUntilLength(s: seq<Elem>, target: Elem)
    ensures |PopUntil(s, target).0| + |PopUntil(s, target).1| == if target in s then |s| - 1 else |s|
  {
    if |s| > 0 && s[|s| - 1] != target {
      PopUntilLength(s[..|s| - 1], target);
      assert target in s <==> target in s[..|s| - 1] by {
        assert s == s[..|s| - 1] + [s[|s| - 1]];
      }
    }
  }

  /** When the target is in the group, the loop stops at its topmost
      occurrence: everything below stays, and the items above come out in
      reverse order. When it is absent, the whole group is popped. */
  lemma {:induction false} PopUntilSplits(s: seq<Elem>, target: Elem, k: nat)
    requires k < |s| && s[k] == target && target !in s[k + 1..]
    ensures PopUntil(s, target) == (s[..k], Reverse(s[k + 1..]))
  {
    if k < |s| - 1 {
      assert s[|s| - 1] in s[k + 1..];
      var t := s[..|s| - 1];
      assert t[k + 1..] == s[k + 1..|s| - 1];
      PopUntilSplits(t, target, k);
      assert t[..k] == s[..k];
      assert s[k + 1..][..|s[k + 1..]| - 1] == t[k + 1..];
      assert Reverse(s[k + 1..]) == [s[|s| - 1]] + Reverse(t[k + 1..]);
    } else {
      assert s[k + 1..] == [];
    }
  }

  lemma {:induction false} PopUntilAbsent(s: seq<Elem>, target: Elem)
    requires target !in s
    ensures PopUntil(s, target) == ([], Reverse(s))
  {
    if |s| > 0 {
      PopUntilAbsent(s[..|s| - 1], target);
    }
  }

  /** The text a slot shows: `string[:maxlen]` when `maxlen` is truthy. */
  function Truncate(val: string, maxlen: int): (r: string)
    ensures |r| <= |val| && r == val[..|r|]
    ensures maxlen > 0 ==> |r| == if maxlen <= |val| then maxlen else |val|
    ensures maxlen == 0 ==> r == val
  {
    if maxlen != 0 then SliceTo(val, maxlen) else val
  }

  /** Slot `index` shows a text area holding `val` truncated to the slot's
      maxlen, drawn in the slot's colour at the slot's position. */
  predicate Shows(st: TextState, index: nat, val: string)
  {
    && index < |st.slots| && index < |st.areas|
    && st.areas[index].Some? && st.areas[index].value.TextArea?
    && st.areas[index].value.text == Truncate(val, st.slots[index].maxlen)
    && st.areas[index].value.color == st.slots[index].color
    && st.slots[index].position == Some(st.areas[index].value.pos)
  }

  /** `set_text(val, index)`. Without a text font nothing happens. If the
      slot already shows an area, the group is popped down to that area, a
      new area is created and appended, and the popped items are appended
      again in pop order. Otherwise a new area is appended, if the slot has
      a position. An index outside the slots raises IndexError; creating a
      new area in a full `splash` raises; replacing an area of a slot
      without a position fails on `None[0]`. A replacement whose appends
      would take `splash` past its capacity (possible only when the old
      area is missing from it) raises as well. */
  function SetText(st: TextState, val: string, index: nat): (r: Result<TextState>)
    // without a font, or with neither an area nor a position, nothing changes
    ensures !st.hasFont ==> r == Ok(st)
    ensures (st.hasFont && index < |st.slots| && index < |st.areas|
             && st.areas[index].None? && st.slots[index].position.None?) ==> r == Ok(st)
    ensures st.hasFont && !(index < |st.slots| && index < |st.areas|) ==> r == Err(IndexError)
    ensures r.Ok? ==> |r.value.areas| == |st.areas|
    // replacing an area needs a position; a new area needs room in `splash`
    ensures (st.hasFont && index < |st.slots| && index < |st.areas|
             && st.areas[index].Some? && st.slots[index].position.None?) ==> r == Err(TypeError)
    ensures (st.hasFont && index < |st.slots| && index < |st.areas|
             && st.areas[index].None? && st.slots[index].position.Some?) ==>
      (r.Ok? <==> |st.splash| < SplashCapacity) && (r.Err? ==> r.error == RuntimeError)
    // a replacement puts back everything it popped, plus the new area
    ensures (st.hasFont && index < |st.slots| && index < |st.areas|
             && st.areas[index].Some? && st.slots[index].position.Some?) ==>
      (var after := if st.areas[index].value in st.splash then |st.splash| else |st.splash| + 1;
       && (r.Ok? <==> after <= SplashCapacity)
       && (r.Err? ==> r.error == RuntimeError)
       && (r.Ok? ==> |r.value.splash| == after))
    // otherwise the slot shows a fresh area in `splash`: the value truncated
    // to the slot's maxlen, in the slot's colour, at the slot's position
    ensures (r.Ok? && st.hasFont && index < |st.slots| && index < |st.areas|
             && (st.areas[index].Some? || st.slots[index].position.Some?)) ==>
      && r.value.areas[index].Some?
      && r.value.areas[index].value in r.value.splash
      && Shows(r.value, index, val)
      && r.value.areas[index].value.id == st.nextId
    ensures r.Ok? ==> r.value.slots == st.slots && r.value.hasFont == st.hasFont
    ensures r.Ok? ==> forall j :: 0 <= j < |st.areas| && j != index ==> r.value.areas[j] == st.areas[j]
  {
    if !st.hasFont then Ok(st)
    else if !(index < |st.slots| && index < |st.areas|) then Err(IndexError)
    else
      var slot := st.slots[index];
      var text := Truncate(val, slot.maxlen);
      match st.areas[index]
      case Some(prev) =>
        var (below, popped) := PopUntil(st.splash, prev);
        PopUntilLength(st.splash, prev);
        (match slot.position
         case None => Err(TypeError)
         case Some(p) =>
           if |below| + 1 + |popped| > SplashCapacity then Err(RuntimeError)
           else
             var area := TextArea(st.nextId, text, slot.color, p);
             Ok(st.(areas := st.areas[index := Some(area)],
                    splash := below + [area] + popped,
                    nextId := st.nextId + 1)))
      case None =>
        (match slot.position
         case None => Ok(st)
         case Some(p) =>
           if |st.splash| >= SplashCapacity then Err(RuntimeError)
           else
             var area := TextArea(st.nextId, text, slot.color, p);
             Ok(st.(areas := st.areas[index := Some(area)],
                    splash := st.splash + [area],
                    nextId := st.nextId + 1)))
  }

  /** Replacing the area of a slot that has one: `splash` keeps its length,
      the new area takes the old area's place, everything below is
      unchanged and everything above comes back in REVERSE order. */
  lemma SetTextReplace(st: TextState, val: string, index: nat, k: nat)
    requires st.hasFont && index < |st.slots| && index < |st.areas|
    requires st.slots[index].position.Some?
    requires st.areas[index].Some? && k < |st.splash| && st.splash[k] == st.areas[index].value
    requires st.areas[index].value !in st.splash[k + 1..]
    ensures var r := SetText(st, val, index);
      && (r.Ok? <==> |st.splash| <= SplashCapacity)
      && (r.Ok? ==>
            (&& |r.value.splash| == |st.splash|
             && r.value.splash[..k] == st.splash[..k]
             && r.value.areas[index] == Some(r.value.splash[k])
             && r.value.splash[k + 1..] == Reverse(st.splash[k + 1..])
             && r.value.areas == st.areas[index := Some(r.value.splash[k])]
             && r.value.splash[k].id == st.nextId && r.value.nextId == st.nextId + 1
             && r.value.slots == st.slots))
  {
    PopUntilSplits(st.splash, st.areas[index].value, k);
    if |st.splash| > SplashCapacity {
      return;
    }
    var r := SetText(st, val, index).value;
    var area := r.areas[index].value;
    assert r.splash == st.splash[..k] + [area] + Reverse(st.splash[k + 1..]);
    assert r.splash[..k] == st.splash[..k];
    assert r.splash[k + 1..] == Reverse(st.splash[k + 1..]);
  }

  /** Creating the first area of a slot with a position appends it on top
      when `splash` has room and raises otherwise. */
  lemma SetTextCreate(st: TextState, val: string, index: nat)
    requires st.hasFont && index < |st.slots| && index < |st.areas|
    requires st.slots[index].position.Some? && st.areas[index].None?
    ensures var r := SetText(st, val, index);
      && (r.Ok? <==> |st.splash| < SplashCapacity)
      && (r.Ok? ==> r.value.splash == st.splash + [r.value.areas[index].value])
  {
  }

  /** The replacement leaves the stacking order of the other elements intact
      only when the elements above the slot read the same in both
      directions, for instance when at most one element lies above it. */
  lemma SetTextOrderKeptIff(st: TextState, val: string, index: nat, k: nat)
    requires st.hasFont && index < |st.slots| && index < |st.areas|
    requires st.slots[index].position.Some?
    requires st.areas[index].Some? && k < |st.splash| && st.splash[k] == st.areas[index].value
    requires st.areas[index].value !in st.splash[k + 1..]
    requires |st.splash| <= SplashCapacity
    ensures var r := SetText(st, val, index);
      && r.Ok? && |r.value.splash| == |st.splash|
      && (r.value.splash == st.splash[k := r.value.splash[k]] <==> Reverse(st.splash[k + 1..]) == st.splash[k + 1..])
  {
    SetTextReplace(st, val, index, k);
    var r := SetText(st, val, index).value;
    var inPlace := st.splash[k := r.splash[k]];
    assert inPlace[..k] == st.splash[..k];
    assert inPlace[k + 1..] == st.splash[k + 1..];
    assert r.splash == r.splash[..k] + [r.splash[k]] + r.splash[k + 1..];
    assert inPlace == inPlace[..k] + [inPlace[k]] + inPlace[k + 1..];
    if r.splash == inPlace {
      assert r.splash[k + 1..] == inPlace[k + 1..];
    }
  }

  /** The invariant the text state keeps: one area entry per slot, element
      identities distinct and below `nextId`, every area in `splash`, the
      group within its capacity. */
  predicate TextInv(st: TextState)
  {
    && |st.areas| == |st.slots|
    && |st.splash| <= SplashCapacity
    && (forall i, j :: 0 <= i < j < |st.splash| ==> st.splash[i].id != st.splash[j].id)
    && (forall i :: 0 <= i < |st.splash| ==> st.splash[i].id < st.nextId)
    && (forall j :: 0 <= j < |st.areas| && st.areas[j].Some? ==> st.areas[j].value in st.splash)
    && (forall i, j :: 0 <= i < j < |st.areas| && st.areas[i].Some? && st.areas[j].Some? ==>
          st.areas[i].value != st.areas[j].value)
  }

  lemma DistinctNotAbove(s: seq<Elem>, k: nat)
    requires k < |s|
    requires forall i, j :: 0 <= i < j < |s| ==> s[i].id != s[j].id
    ensures s[k] !in s[k + 1..]
  {
  }

  /** Where each element of a replaced group comes from. */
  lemma ReplaceAt(s: seq<Elem>, e: Elem, k: nat, i: nat)
    requires k < |s| && i < |s|
    ensures var t := s[..k] + [e] + Reverse(s[k + 1..]);
      |t| == |s| && t[i] == if i < k then s[i] else if i == k then e else s[|s| + k - i]
  {
  }

  /** Replacing the element at `k` by a fresh one and reversing the elements
      above keeps identities distinct and every other element present. */
  lemma ReplaceKeepsElements(s: seq<Elem>, e: Elem, k: nat, bound: nat)
    requires k < |s|
    requires forall i, j :: 0 <= i < j < |s| ==> s[i].id != s[j].id
    requires forall i :: 0 <= i < |s| ==> s[i].id < bound
    requires e.id == bound
    ensures var t := s[..k] + [e] + Reverse(s[k + 1..]);
      && (forall i, j :: 0 <= i < j < |t| ==> t[i].id != t[j].id)
      && (forall i :: 0 <= i < |t| ==> t[i].id < bound + 1)
      && (forall m :: 0 <= m < |s| && m != k ==> s[m] in t)
  {
    var t := s[..k] + [e] + Reverse(s[k + 1..]);
    forall i, j | 0 <= i < j < |t| ensures t[i].id != t[j].id {
      ReplaceAt(s, e, k, i);
      ReplaceAt(s, e, k, j);
    }
    forall i | 0 <= i < |t| ensures t[i].id < bound + 1 {
      ReplaceAt(s, e, k, i);
    }
    forall m | 0 <= m < |s| && m != k ensures s[m] in t {
      var i := if m < k then m else |s| + k - m;
      ReplaceAt(s, e, k, i);
    }
  }

  /** The other slots' areas survive a replacement, and the new area is
      distinct from them (its identity is fresh). */
  lemma ReplacedAreas(st: TextState, nw: TextState, index: nat, k: nat, area: Elem)
    requires TextInv(st) && index < |st.areas| && st.areas[index].Some?
    requires k < |st.splash| && st.splash[k] == st.areas[index].value
    requires area.id == st.nextId
    requires nw.areas == st.areas[index := Some(area)]
    requires forall m :: 0 <= m < |st.splash| && m != k ==> st.splash[m] in nw.splash
    requires area in nw.splash
    ensures forall j :: 0 <= j < |nw.areas| && nw.areas[j].Some? ==> nw.areas[j].value in nw.splash
    ensures forall i, j :: 0 <= i < j < |nw.areas| && nw.areas[i].Some? && nw.areas[j].Some? ==>
              nw.areas[i].value != nw.areas[j].value
  {
    forall j | 0 <= j < |nw.areas| && nw.areas[j].Some? ensures nw.areas[j].value in nw.splash {
      if j != index {
        var e := st.areas[j].value;
        var m :| 0 <= m < |st.splash| && st.splash[m] == e;
        assert m != k;
      }
    }
    forall i, j | 0 <= i < j < |nw.areas| && nw.areas[i].Some? && nw.areas[j].Some?
      ensures nw.areas[i].value != nw.areas[j].value
    {
      if i == index || j == index {
        var other := if i == index then j else i;
        assert st.areas[other].value in st.splash;
      }
    }
  }

  lemma ReplaceKeepsInv(st: TextState, val: string, index: nat)
    requires TextInv(st) && st.hasFont && index < |st.slots|
    requires st.slots[index].position.Some? && st.areas[index].Some?
    ensures SetText(st, val, index).Ok? && TextInv(SetText(st, val, index).value)
  {
    var prev := st.areas[index].value;
    var k :| 0 <= k < |st.splash| && st.splash[k] == prev;
    DistinctNotAbove(st.splash, k);
    SetTextReplace(st, val, index, k);
    var nw := SetText(st, val, index).value;
    var area := nw.splash[k];
    assert nw.splash == nw.splash[..k] + [area] + nw.splash[k + 1..];
    ReplacedKeepsInv(st, nw, index, k, area);
  }

  /** A state whose slot `index` area, at `k` in `splash`, was replaced by a
      fresh one, with the elements above it reversed, keeps the invariant. */
  lemma ReplacedKeepsInv(st: TextState, nw: TextState, index: nat, k: nat, area: Elem)
    requires TextInv(st) && index < |st.areas| && st.areas[index].Some?
    requires k < |st.splash| && st.splash[k] == st.areas[index].value
    requires area.id == st.nextId && nw.nextId == st.nextId + 1 && nw.slots == st.slots
    requires nw.splash == st.splash[..k] + [area] + Reverse(st.splash[k + 1..])
    requires nw.areas == st.areas[index := Some(area)]
    ensures TextInv(nw)
  {
    ReplaceKeepsElements(st.splash, area, k, st.nextId);
    ReplaceAt(st.splash, area, k, k);
    ReplacedAreas(st, nw, index, k, area);
  }

  lemma CreateKeepsInv(st: TextState, val: string, index: nat)
    requires TextInv(st) && st.hasFont && index < |st.slots|
    requires st.slots[index].position.Some? && st.areas[index].None?
    ensures var r := SetText(st, val, index); r.Ok? ==> TextInv(r.value)
  {
    var r := SetText(st, val, index);
    if r.Ok? {
      var nw := r.value;
      var area := nw.areas[index].value;
      assert nw.splash == st.splash + [area];
      forall i, j | 0 <= i < j < |nw.areas| && nw.areas[i].Some? && nw.areas[j].Some?
        ensures nw.areas[i].value != nw.areas[j].value
      {
        if i == index || j == index {
          var other := if i == index then j else i;
          assert st.areas[other].value in st.splash;
        }
      }
    }
  }

  /** `set_text` keeps the invariant. */
  lemma SetTextKeepsInv(st: TextState, val: string, index: nat)
    requires TextInv(st)
    ensures var r := SetText(st, val, index); r.Ok? ==> TextInv(r.value)
  {
    if st.hasFont && index < |st.slots| && st.slots[index].position.Some? {
      if st.areas[index].Some? {
        ReplaceKeepsInv(st, val, index);
      } else {
        CreateKeepsInv(st, val, index);
      }
    }
  }

  // ---------------------------------------------------------------------
  // Background

  /** A file event of the background handle. */
  datatype FileEvent = Opened(name: string) | Closed(name: string)

  /** `_bg_group` (the file name shown by each sprite), `_bg_file` (the
      name of the last opened file, if any) and the history of opens and
      closes of that handle. */
  datatype BgState = BgState(group: seq<string>, file: Option<string>, log: seq<FileEvent>)

  /** `displayio.Group(max_size=1)` for `_bg_group`. */
  const BgCapacity: nat := 1

  /** Python truthiness of an optional file name. */
  predicate Truthy(name: Option<string>)
  {
    name.Some? && name.value != ""
  }

  /** `set_background(filename)`: pop the current sprite (an empty group is
      fine); with a falsy name stop there; otherwise close the previous
      file, open the new one and append a sprite showing it. */
  function SetBackground(bg: BgState, filename: Option<string>): (r: Result<BgState>)
    ensures |bg.group| <= BgCapacity ==> r.Ok? && |r.value.group| <= BgCapacity
    ensures r.Ok? && !Truthy(filename) ==>
      r.value.file == bg.file && r.value.log == bg.log && |r.value.group| == if |bg.group| > 0 then |bg.group| - 1 else 0
    ensures r.Ok? && Truthy(filename) ==>
      && r.value.file == filename
      && |r.value.group| >= 1 && r.value.group[|r.value.group| - 1] == filename.value
      && r.value.log == bg.log + (if bg.file.Some? then [Closed(bg.file.value)] else []) + [Opened(filename.value)]
  {
    var group := if |bg.group| > 0 then bg.group[..|bg.group| - 1] else bg.group;
    if !Truthy(filename) then Ok(bg.(group := group))
    else
      var closes := if bg.file.Some? then [Closed(bg.file.value)] else [];
      if |group| >= BgCapacity then Err(RuntimeError)
      else Ok(BgState(group + [filename.value], filename, bg.log + closes + [Opened(filename.value)]))
  }

  /** Background handles left open by a history of events. */
  function OpenCount(log: seq<FileEvent>): int
  {
    if |log| == 0 then 0
    else OpenCount(log[..|log| - 1]) + (if log[|log| - 1].Opened? then 1 else -1)
  }

  /** The background invariant: at most one sprite, and exactly the handle
      `_bg_file` left open (none if there is none). */
  predicate BgInv(bg: BgState)
  {
    && |bg.group| <= BgCapacity
    && OpenCount(bg.log) == (if bg.file.Some? then 1 else 0)
  }

  lemma OpenCountAppend(log: seq<FileEvent>, e: FileEvent)
    ensures OpenCount(log + [e]) == OpenCount(log) + (if e.Opened? then 1 else -1)
  {
    assert (log + [e])[..|log|] == log;
  }

  /** `set_background` keeps at most one sprite and at most one open handle:
      the old handle is closed before the new one is opened, so the count
      never exceeds one. */
  lemma SetBackgroundKeepsInv(bg: BgState, filename: Option<string>)
    requires BgInv(bg)
    ensures SetBackground(bg, filename).Ok? && BgInv(SetBackground(bg, filename).value)
  {
    var r := SetBackground(bg, filename).value;
    if Truthy(filename) {
      if bg.file.Some? {
        OpenCountAppend(bg.log, Closed(bg.file.value));
        OpenCountAppend(bg.log + [Closed(bg.file.value)], Opened(filename.value));
      } else {
        assert r.log == bg.log + [Opened(filename.value)];
        OpenCountAppend(bg.log, Opened(filename.value));
      }
    }
  }

  /** Two backgrounds in a row: one sprite remains, showing the second file,
      and the first handle was closed before the second was opened. */
  lemma SetBackgroundTwice(bg: BgState, f1: string, f2: string)
    requires BgInv(bg) && f1 != "" && f2 != ""
    ensures var r1 := SetBackground(bg, Some(f1));
      r1.Ok? &&
      var r2 := SetBackground(r1.value, Some(f2));
      && r2.Ok?
      && r2.value.group == [f2]
      && r2.value.log[|bg.log|..] ==
         (if bg.file.Some? then [Closed(bg.file.value)] else []) + [Opened(f1), Closed(f1), Opened(f2)]
  {
    SetBackgroundKeepsInv(bg, Some(f1));
    var r1 := SetBackground(bg, Some(f1)).value;
    assert r1.group == [f1];
    var closes := if bg.file.Some? then [Closed(bg.file.value)] else [];
    var r2 := SetBackground(r1, Some(f2)).value;
    var tail := closes + [Opened(f1), Closed(f1), Opened(f2)];
    assert r2.log == bg.log + tail by {
      assert r1.log == bg.log + closes + [Opened(f1)];
      assert r1.file == Some(f1);
    }
    DropPrefix(bg.log, tail);
  }

  lemma DropPrefix<T>(a: seq<T>, b: seq<T>)
    ensures (a + b)[|a|..] == b
  {
  }

  // ---------------------------------------------------------------------
  // Text-slot configuration

  /** An integer argument given either as one value or as a list. */
  datatype IntArg = IntVal(n: int) | IntList(ns: seq<int>)

  /** `text_position`: None, an empty list, one `(x, y)` pair, or a list of
      positions whose first entry is a pair (later entries may be falsy). */
  datatype PosArg =
    | NoPos
    | EmptyPosList
    | OnePos(p: Pos)
    | PosList(first: Pos, rest: seq<Option<Pos>>)

  predicate Falsy(a: IntArg)
  {
    a == IntVal(0) || a == IntList([])
  }

  /** The integer a single-valued argument holds; a falsy list reads as 0. */
  function IntOrZero(a: IntArg): int
  {
    if a.IntVal? then a.n else 0
  }

  /** `arg[i]` for a per-slot argument: a single integer is not subscriptable. */
  function At(a: IntArg, i: nat): Result<int>
  {
    match a
    case IntVal(_) => Err(TypeError)
    case IntList(ns) => if i < |ns| then Ok(ns[i]) else Err(IndexError)
  }

  /** The slot loop of the constructor, from slot `i` on. */
  function BuildSlots(ps: seq<Option<Pos>>, colors: IntArg, wraps: IntArg, maxlens: IntArg, i: nat): (r: Result<seq<Slot>>)
    requires i <= |ps|
    ensures r.Ok? ==> |r.value| == |ps| - i
    ensures r.Ok? ==> forall k :: 0 <= k < |r.value| ==>
      && r.value[k].position == ps[i + k]
      && Ok(r.value[k].color) == At(colors, i + k)
      && Ok(r.value[k].wrap) == At(wraps, i + k)
      && Ok(r.value[k].maxlen) == At(maxlens, i + k)
    ensures r.Err? ==> exists k :: i <= k < |ps| && (At(colors, k).Err? || At(wraps, k).Err? || At(maxlens, k).Err?)
    decreases |ps| - i
  {
    if i == |ps| then Ok([])
    else
      var c :- At(colors, i);
      var w :- At(wraps, i);
      var m :- At(maxlens, i);
      var rest :- BuildSlots(ps, colors, wraps, maxlens, i + 1);
      Ok([Slot(ps[i], c, w, m)] + rest)
  }

  /** The constructor's text configuration: none without a text font; one
      slot for a single position, its colour, wrap and maximum length taken
      as given (an empty list is falsy and reads as no wrap or no maximum,
      as the later `if` tests take it); for a list of positions one slot per position, a falsy wrap
      or maximum length standing for zeros, and the others indexed per
      slot. `text_position` None or empty raises. */
  function NormalizeTextSlots(hasFont: bool, pos: PosArg, color: IntArg, wrap: IntArg, maxlen: IntArg): (r: Result<Option<seq<Slot>>>)
    ensures !hasFont ==> r == Ok(None)
    ensures hasFont && (pos.NoPos? || pos.EmptyPosList?) ==> r.Err?
    ensures r.Ok? && hasFont ==> r.value.Some?
    ensures hasFont && pos.OnePos? ==>
      (r.Ok? <==> color.IntVal? && (wrap.IntVal? || Falsy(wrap)) && (maxlen.IntVal? || Falsy(maxlen)))
    ensures r.Ok? && pos.OnePos? && hasFont ==>
      && |r.value.value| == 1
      && r.value.value[0].position == Some(pos.p)
      && r.value.value[0].color == color.n
      && (Falsy(wrap) ==> r.value.value[0].wrap == 0)
      && (wrap.IntVal? ==> r.value.value[0].wrap == wrap.n)
      && (Falsy(maxlen) ==> r.value.value[0].maxlen == 0)
      && (maxlen.IntVal? ==> r.value.value[0].maxlen == maxlen.n)
    ensures r.Ok? && pos.PosList? && hasFont ==>
      var slots := r.value.value;
      && |slots| == 1 + |pos.rest|
      && slots[0].position == Some(pos.first)
      && (forall k :: 1 <= k < |slots| ==> slots[k].position == pos.rest[k - 1])
      && (forall k :: 0 <= k < |slots| ==> Ok(slots[k].color) == At(color, k))
      && (Falsy(wrap) ==> forall k :: 0 <= k < |slots| ==> slots[k].wrap == 0)
      && (!Falsy(wrap) ==> forall k :: 0 <= k < |slots| ==> Ok(slots[k].wrap) == At(wrap, k))
      && (Falsy(maxlen) ==> forall k :: 0 <= k < |slots| ==> slots[k].maxlen == 0)
      && (!Falsy(maxlen) ==> forall k :: 0 <= k < |slots| ==> Ok(slots[k].maxlen) == At(maxlen, k))
    ensures hasFont && pos.PosList? && color.IntVal? ==> r.Err?
  {
    if !hasFont then Ok(None)
    else
      match pos
      case NoPos => Err(TypeError)
      case EmptyPosList => Err(IndexError)
      case OnePos(p) =>
        if color.IntList? || (wrap.IntList? && !Falsy(wrap)) || (maxlen.IntList? && !Falsy(maxlen)) then Err(TypeError)
        else Ok(Some([Slot(Some(p), color.n, IntOrZero(wrap), IntOrZero(maxlen))]))
      case PosList(first, rest) =>
        var ps := [Some(first)] + rest;
        assert forall k :: 1 <= k < |ps| ==> ps[k] == rest[k - 1];
        var slots :- ListSlots(ps, color, wrap, maxlen);
        Ok(Some(slots))
  }

  /** The list-of-positions configuration: one slot per position; a falsy
      wrap or maximum length stands for zeros, and every other argument is
      indexed per slot. */
  function ListSlots(ps: seq<Option<Pos>>, color: IntArg, wrap: IntArg, maxlen: IntArg): (r: Result<seq<Slot>>)
    ensures r.Ok? ==> |r.value| == |ps|
    ensures r.Ok? ==> forall k :: 0 <= k < |ps| ==>
      && r.value[k].position == ps[k]
      && Ok(r.value[k].color) == At(color, k)
      && (Falsy(wrap) ==> r.value[k].wrap == 0)
      && (!Falsy(wrap) ==> Ok(r.value[k].wrap) == At(wrap, k))
      && (Falsy(maxlen) ==> r.value[k].maxlen == 0)
      && (!Falsy(maxlen) ==> Ok(r.value[k].maxlen) == At(maxlen, k))
    ensures |ps| > 0 && color.IntVal? ==> r.Err?
  {
    var num := |ps|;
    var wraps := if Falsy(wrap) then IntList(seq(num, _ => 0)) else wrap;
    var maxlens := if Falsy(maxlen) then IntList(seq(num, _ => 0)) else maxlen;
    BuildSlots(ps, color, wraps, maxlens, 0)
  }

  /** The initial text state: no area for any slot yet. */
  function InitialTextState(hasFont: bool, slots: seq<Slot>, splash: seq<Elem>, nextId: nat): (st: TextState)
    ensures |st.areas| == |slots| && forall j :: 0 <= j < |slots| ==> st.areas[j].None?
  {
    TextState(hasFont, slots, seq(|slots|, _ => None), splash, nextId)
  }

  /** A freshly configured text state keeps the invariant `set_text` relies
      on, given a `splash` within capacity whose elements have distinct
      identities below `nextId`. */
  lemma InitialTextStateInv(hasFont: bool, slots: seq<Slot>, splash: seq<Elem>, nextId: nat)
    requires |splash| <= SplashCapacity
    requires forall i, j :: 0 <= i < j < |splash| ==> splash[i].id != splash[j].id
    requires forall i :: 0 <= i < |splash| ==> splash[i].id < nextId
    ensures TextInv(InitialTextState(hasFont, slots, splash, nextId))
  {
  }
}

=== FILE: strs.dfy ===
/** Python's `str.split(sep)` with an explicit one-character separator, and
    its inverse `sep.join(pieces)`. */
module Strs {

  /** `s.split(c)`: the maximal runs of `s` between occurrences of `c`, empty
      runs included, so there is always at least one piece. */
  function Split(s: string, c: char): (r: seq<string>)
    ensures |r| >= 1
    ensures forall k :: 0 <= k < |r| ==> c !in r[k]
  {
    if |s| == 0 then [""]
    else
      var rest := Split(s[1..], c);
      if s[0] == c then [""] + rest
      else [[s[0]] + rest[0]] + rest[1..]
  }

  /** `c.join(ws)`. */
  function Join(ws: seq<string>, c: char): string
  {
    if |ws| == 0 then "" else if |ws| == 1 then ws[0] else ws[0] + [c] + Join(ws[1..], c)
  }

  /** Every character of a piece occurs in the joined string. */
  lemma {:induction false} InJoin(ws: seq<string>, c: char, k: nat, ch: char)
    requires k < |ws| && ch in ws[k]
    ensures ch in Join(ws, c)
  {
    if |ws| > 1 && k > 0 {
      InJoin(ws[1..], c, k - 1, ch);
    }
  }

  /** Prepending text to the first piece prepends it to the joined string. */
  lemma JoinConsHead(x: string, y: string, t: seq<string>, c: char)
    ensures Join([x + y] + t, c) == x + Join([y] + t, c)
  {
    assert ([x + y] + t)[1..] == t;
    assert ([y] + t)[1..] == t;
  }

  /** Appending one piece appends the separator and the piece. */
  lemma {:induction false} JoinSnoc(ws: seq<string>, v: string, c: char)
    requires |ws| >= 1
    ensures Join(ws + [v], c) == Join(ws, c) + [c] + v
  {
    if |ws| == 1 {
      assert (ws + [v])[1..] == [v];
    } else {
      assert (ws + [v])[1..] == ws[1..] + [v];
      JoinSnoc(ws[1..], v, c);
    }
  }

  /** Joining the pieces of a split gives back the original string. */
  lemma {:induction false} JoinSplit(s: string, c: char)
    ensures Join(Split(s, c), c) == s
  {
    if |s| > 0 {
      var rest := Split(s[1..], c);
      JoinSplit(s[1..], c);
      if s[0] == c {
        assert ([""] + rest)[1..] == rest;
      } else {
        JoinConsHead([s[0]], rest[0], rest[1..], c);
        assert [rest[0]] + rest[1..] == rest;
      }
    }
  }

  /** Splitting distributes over a separator occurrence. */
  lemma {:induction false} SplitAppend(a: string, b: string, c: char)
    ensures Split(a + [c] + b, c) == Split(a, c) + Split(b, c)
  {
    if |a| == 0 {
      assert a + [c] + b == [c] + b;
      assert ([c] + b)[1..] == b;
    } else {
      assert (a + [c] + b)[1..] == a[1..] + [c] + b;
      SplitAppend(a[1..], b, c);
    }
  }

  /** A string without the separator splits into itself. */
  lemma {:induction false} SplitNoSep(s: string, c: char)
    requires c !in s
    ensures Split(s, c) == [s]
  {
    if |s| > 0 {
      assert c !in s[1..];
      SplitNoSep(s[1..], c);
      assert [s[0]] + s[1..] == s;
    }
  }

  /** Splitting a join of separator-free pieces gives back the pieces. */
  lemma {:induction false} SplitJoin(ws: seq<string>, c: char)
    requires |ws| >= 1
    requires forall k :: 0 <= k < |ws| ==> c !in ws[k]
    ensures Split(Join(ws, c), c) == ws
  {
    if |ws| == 1 {
      SplitNoSep(ws[0], c);
    } else {
      SplitJoin(ws[1..], c);
      SplitNoSep(ws[0], c);
      SplitAppend(ws[0], Join(ws[1..], c), c);
      assert [ws[0]] + ws[1..] == ws;
    }
  }
}

=== FILE: wrap.dfy ===
/** `PyPortal.wrap_nicely`: the greedy word wrap applied to text slots that
    have a wrap width. Modelled as written: words come from `split(' ')`
    (empty words kept), the first line starts as "" and grows by `' ' + w`,
    so it carries a leading space, and when even the first word does not fit
    an empty first line is emitted. */
module WordWrap {
  import Strs

  /** The loop variables `the_lines` and `the_line`. */
  datatype WrapState = WrapState(lines: seq<string>, line: string)

  /** One iteration of the loop over the words. */
  function WrapStep(st: WrapState, w: string, maxChars: int): WrapState
  {
    if |st.line + " " + w| <= maxChars then WrapState(st.lines, st.line + " " + w)
    else WrapState(st.lines + [st.line], w)
  }

  /** The loop state after the given words, from the initial `([], "")`. */
  function WrapFold(words: seq<string>, maxChars: int): WrapState
  {
    if |words| == 0 then WrapState([], "")
    else WrapStep(WrapFold(words[..|words| - 1], maxChars), words[|words| - 1], maxChars)
  }

  /** The words `wrap_nicely` iterates over. */
  function Words(s: string): seq<string>
  {
    Strs.Split(s, ' ')
  }

  /** `wrap_nicely(s, maxChars)`: the lines, the last one kept only when it
      is non-empty. There is always at least one line; the first is empty
      exactly when the first word does not fit after a space, and otherwise
      starts with that space. */
  function WrapNicely(s: string, maxChars: int): (r: seq<string>)
    ensures |r| >= 1
    ensures r[0] == "" <==> 1 + |Words(s)[0]| > maxChars
    ensures r[0] != "" ==> r[0][0] == ' '
  {
    var st := WrapFold(Words(s), maxChars);
    FirstLine(Words(s), maxChars);
    if st.line != "" then st.lines + [st.line] else st.lines
  }

  /** What the first word decides: the state is never empty afterwards, and
      the first line is "" or starts with the space before the first word. */
  lemma {:induction false} FirstLine(words: seq<string>, maxChars: int)
    requires |words| >= 1
    ensures var st := WrapFold(words, maxChars);
      && (|st.lines| >= 1 || st.line != "")
      && (var first := if |st.lines| >= 1 then st.lines[0] else st.line;
          && (first == "" <==> 1 + |words[0]| > maxChars)
          && (first != "" ==> first[0] == ' '))
  {
    if |words| > 1 {
      FirstLine(words[..|words| - 1], maxChars);
      assert words[..|words| - 1][0] == words[0];
    }
  }

  /** Replacing the last piece `a` by `a + sep + b` appends `sep + b` to the join. */
  lemma JoinGrowLast(xs: seq<string>, a: string, b: string)
    ensures Strs.Join(xs + [a + " " + b], ' ') == Strs.Join(xs + [a], ' ') + " " + b
  {
    if |xs| == 0 {
      assert xs + [a + " " + b] == [a + " " + b];
      assert xs + [a] == [a];
    } else {
      Strs.JoinSnoc(xs, a + " " + b, ' ');
      Strs.JoinSnoc(xs, a, ' ');
    }
  }

  /** The loop loses no word and reorders none: the pending lines and the
      current line, joined by spaces, are a space followed by the words
      joined by spaces. */
  lemma {:induction false} FoldJoin(words: seq<string>, maxChars: int)
    requires |words| >= 1
    ensures var st := WrapFold(words, maxChars);
      Strs.Join(st.lines + [st.line], ' ') == " " + Strs.Join(words, ' ')
  {
    var n := |words|;
    var w := words[n - 1];
    var prev := WrapFold(words[..n - 1], maxChars);
    if n == 1 {
      assert words == [w];
      assert prev == WrapState([], "");
      if |prev.line + " " + w| <= maxChars {
        assert prev.line + " " + w == " " + w;
      } else {
        assert prev.lines + [prev.line] + [w] == ["", w];
        assert ["", w][1..] == [w];
      }
    } else {
      FoldJoin(words[..n - 1], maxChars);
      Strs.JoinSnoc(words[..n - 1], w, ' ');
      assert words[..n - 1] + [w] == words;
      if |prev.line + " " + w| <= maxChars {
        JoinGrowLast(prev.lines, prev.line, w);
      } else {
        Strs.JoinSnoc(prev.lines + [prev.line], w, ' ');
      }
    }
  }

  /** Joining the output lines with spaces gives the input behind one space,
      or, when the input ended in a space whose empty last word was dropped,
      the input behind one space without that trailing space. In particular,
      when the input is non-empty and does not end in a space, the join is
      exactly `" " + s`. */
  lemma WrapNicelyJoin(s: string, maxChars: int)
    ensures var r := WrapNicely(s, maxChars);
      || Strs.Join(r, ' ') == " " + s
      || Strs.Join(r, ' ') + " " == " " + s
    ensures |s| >= 1 && s[|s| - 1] != ' ' ==> Strs.Join(WrapNicely(s, maxChars), ' ') == " " + s
  {
    var words := Words(s);
    var st := WrapFold(words, maxChars);
    FoldJoin(words, maxChars);
    Strs.JoinSplit(s, ' ');
    if st.line == "" {
      FirstLine(words, maxChars);
      Strs.JoinSnoc(st.lines, "", ' ');
      var j := Strs.Join(st.lines, ' ');
      assert j + " " == " " + s;
      if |s| >= 1 {
        assert (" " + s)[|s|] == s[|s| - 1];
        assert (j + " ")[|s|] == ' ';
      }
    }
  }

  /** Every word of the input is a word of the output joined back together,
      in order, after the leading empty word the first space makes. */
  lemma WrapNicelyKeepsWords(s: string, maxChars: int)
    requires |s| >= 1 && s[|s| - 1] != ' '
    ensures Strs.Split(Strs.Join(WrapNicely(s, maxChars), ' '), ' ') == [""] + Words(s)
  {
    WrapNicelyJoin(s, maxChars);
    Strs.SplitAppend("", s, ' ');
    assert "" + [' '] + s == " " + s;
  }

  /** Line lengths: every line of the fold fits the width or is one whole word. */
  predicate FitsOrWord(line: string, words: seq<string>, maxChars: int)
  {
    |line| <= maxChars || line in words
  }

  lemma {:induction false} FoldBounds(words: seq<string>, maxChars: int)
    requires maxChars >= 0
    ensures var st := WrapFold(words, maxChars);
      && (forall k :: 0 <= k < |st.lines| ==> FitsOrWord(st.lines[k], words, maxChars))
      && FitsOrWord(st.line, words, maxChars)
  {
    if |words| > 0 {
      var n := |words|;
      var prefix := words[..n - 1];
      FoldBounds(prefix, maxChars);
      assert words == prefix + [words[n - 1]];
      var prev := WrapFold(prefix, maxChars);
      forall k | 0 <= k < |prev.lines| ensures FitsOrWord(prev.lines[k], words, maxChars) {
        assert FitsOrWord(prev.lines[k], prefix, maxChars);
      }
      assert FitsOrWord(prev.line, words, maxChars) by {
        assert FitsOrWord(prev.line, prefix, maxChars);
      }
    }
  }

  /** Each output line is at most `maxChars` long, or is a single word of the
      input (one too long to share a line). */
  lemma WrapNicelyLineBound(s: string, maxChars: int)
    requires maxChars >= 0
    ensures var r := WrapNicely(s, maxChars);
      forall k :: 0 <= k < |r| ==> |r[k]| <= maxChars || r[k] in Words(s)
  {
    FoldBounds(Words(s), maxChars);
  }

  /** The first word of a line. */
  function FirstWord(line: string): string
  {
    Strs.Split(line, ' ')[0]
  }

  /** Greedy maximality: the first word of each line did not fit behind the
      line before it, which is why that line was flushed. */
  predicate Greedy(lines: seq<string>, maxChars: int)
  {
    forall k :: 0 <= k < |lines| - 1 ==> |lines[k]| + 1 + |FirstWord(lines[k + 1])| > maxChars
  }

  lemma FirstWordGrow(a: string, b: string)
    ensures FirstWord(a + " " + b) == FirstWord(a)
  {
    Strs.SplitAppend(a, b, ' ');
    assert a + " " + b == a + [' '] + b;
  }

  lemma {:induction false} FoldGreedy(words: seq<string>, maxChars: int)
    requires forall k :: 0 <= k < |words| ==> ' ' !in words[k]
    ensures var st := WrapFold(words, maxChars);
      && Greedy(st.lines, maxChars)
      && (|st.lines| >= 1 ==> |st.lines[|st.lines| - 1]| + 1 + |FirstWord(st.line)| > maxChars)
  {
    if |words| > 0 {
      var n := |words|;
      var w := words[n - 1];
      var prev := WrapFold(words[..n - 1], maxChars);
      FoldGreedy(words[..n - 1], maxChars);
      if |prev.line + " " + w| <= maxChars {
        FirstWordGrow(prev.line, w);
      } else {
        Strs.SplitNoSep(w, ' ');
        var ls := prev.lines + [prev.line];
        forall k | 0 <= k < |ls| - 1
          ensures |ls[k]| + 1 + |FirstWord(ls[k + 1])| > maxChars
        {
          if k < |prev.lines| - 1 {
            assert ls[k] == prev.lines[k] && ls[k + 1] == prev.lines[k + 1];
          }
        }
      }
    }
  }

  /** `wrap_nicely` is greedy: no line could have taken the next line's
      first word without exceeding `maxChars`. */
  lemma WrapNicelyGreedy(s: string, maxChars: int)
    ensures Greedy(WrapNicely(s, maxChars), maxChars)
  {
    var st := WrapFold(Words(s), maxChars);
    FoldGreedy(Words(s), maxChars);
    if st.line != "" {
      var r := st.lines + [st.line];
      forall k | 0 <= k < |r| - 1
        ensures |r[k]| + 1 + |FirstWord(r[k + 1])| > maxChars
      {
        if k < |st.lines| - 1 {
          assert r[k] == st.lines[k] && r[k + 1] == st.lines[k + 1];
        }
      }
    }
  }
}
